=== FILE: README.md ===
# Emotiv EEG reader — a Dafny model of its acquisition core

This project models the sequential, bit-level logic of the Emotiv EPOC reader
and proves properties of it with Dafny 4.11. The reader's hardware, threads and
cipher are left out.

The model covers:

- **The packet decoder** (`DataPacket`). It turns a decrypted 32-byte frame into a packet:
  - the counter, or a battery fraction;
  - the two gyro bytes;
  - fourteen 14-bit electrode levels, each gathered bit by bit through the constant bit-offset tables;
  - an optional contact-quality (CQ) sample.
- **The rolling signal buffer** (`SignalBuffer`). It is a `2N x C` array with mirrored writes and a wrap rule. The packet queue is modelled as a sequence of rows.
- **The device side** (`EmotivDevice`):
  - the AES key built from the serial number;
  - the split of a frame into two independent ECB blocks, with the cipher as a parameter;
  - the subscriber list;
  - the per-packet state update;
  - `clear_state`;
  - the reader start/stop guards;
  - the threshold branches of `contact_resistance`.
- **The presence monitor** (`DeviceMonitor`). It is a two-state machine with one notification round per edge.
- **The CSV sink** (`SignalWriter`):
  - the record layout;
  - the `-1` sentinel;
  - the `", "`-joined line and its read-back;
  - `ready`/`close`.
- **Small rules**:
  - the sorted channel selection (`SignalRenderer`);
  - the gyro cursor clamp and the label throttle (`WaveRider`);
  - the toolkit's timed-call scheduler and modifier-key map (`AlbowRoot`).
- **`Lists`**. It models Python's `list.remove` and `bisect.insort`, which the selection, the subscriber list and the scheduler rely on.

`Wrappers` holds `Option`, `Result` and the Python exceptions the model raises: `IndexError`, `KeyError`, `ValueError` and `AttributeError`.

The buffer's documentation says its window is always a contiguous run of the most recent `N` rows. The code breaks that promise at every wrap, so the model follows the code. The mismatch is reported under "Findings".

## Model

| member | source | states |
|---|---|---|
| DataPacket.GetBitsFromRaw | src/emotiv_data_packet.py:98-109 | The loop returns the table's level: bit `i` of the result is frame bit `t[i]`, and the result is below `2^14`. |
| DataPacket.LevelBit | src/emotiv_data_packet.py:104-109 | Bit `i` of a level is bit `t[i] mod 8` of byte `t[i] div 8 + 1`. Entry 13 is the most significant bit and entry 0 the least. |
| DataPacket.LevelBounded | src/emotiv_data_packet.py:104-109 | Every level assembled from a 14-entry table lies in `[0, 16384)`. |
| DataPacket.SensorTablesAgree | src/emotiv_data_packet.py:12-37 | `counter_to_sensor_id` and `sensor_id_to_ndx` are inverse bijections between the 14 names and 0..13. The bit tables are keyed by exactly those names plus `CQ`. |
| DataPacket.TablesWellFormed | src/emotiv_data_packet.py:12-28 | Every bit table has 14 entries, all below 224, so decoding reads only bytes 1..28. |
| DataPacket.BatteryLevel | src/emotiv_data_packet.py:62 | The battery fraction of a counter byte above 127 lies in `[0, 1]`. |
| DataPacket.BatteryCorners | src/emotiv_data_packet.py:61-63 | Bytes 128..225 read 0 and bytes of 248 or more read 1. In between the reading is `(c - 225) / 23`. A reading is 0 exactly when `c <= 225`. |
| DataPacket.Decode | src/emotiv_data_packet.py:51-88 | A byte above 127 gives counter 128 with the battery fraction; otherwise the counter is the byte and there is no battery. `sync` is never true. Gyro X and Y are bytes 29 and 30. There are 14 levels below 16384. A CQ sample, named `counter_to_sensor_id[counter]`, is present exactly when the counter is below 14, and battery packets never carry one. |
| DataPacket.DecodeChannelBits | src/emotiv_data_packet.py:78-79 | Column `i` is decoded bit by bit with the table of `counter_to_sensor_id[i]`. |
| DataPacket.DecodeCqBits | src/emotiv_data_packet.py:82-84 | The CQ value is decoded bit by bit with the `CQ` table. |
| DataPacket.LevelIgnoresUnusedBytes | src/emotiv_data_packet.py:104-109 | A table with entries below 224 gives equal levels on frames that agree on bytes 1..28. |
| DataPacket.DecodeIgnoresUnusedBytes | src/emotiv_data_packet.py:78-88 | Channel levels and the CQ value do not depend on bytes 0, 29, 30 or 31. |
| DataPacket.GetAttr | src/emotiv_data_packet.py:91-95 | Reading a channel by name fails exactly for unknown names (with `KeyError`) or when the column is outside the level array. |
| DataPacket.GetAttrDecoded | src/emotiv_data_packet.py:91-95 | On a decoded packet, reading a channel by name gives the level of that name's own table. |
| SignalBuffer.New | src/signal_buffer.py:22-30 | A new buffer has `2N` rows of `C` cells holding 8000, with start and end at 0. |
| SignalBuffer.Window | src/signal_buffer.py:33-39 | The window is exactly `N` rows starting at `start`, and `start <= N - 1`. |
| SignalBuffer.WriteRow | src/signal_buffer.py:58-79 | Below the last row, a push writes row `rend`, and also row `rend - N` when `rend > N`, then advances the cursor. At the last row it writes only row `N - 1` and sets the cursor to `N`. Every other row is unchanged. |
| SignalBuffer.StoreRow | src/signal_buffer.py:58-79 | One iteration of the drain loop, written with the source's local cursor, produces the same rows and cursor as the push rule `WriteRow`. |
| SignalBuffer.Pull | src/signal_buffer.py:48-86 | After a pull the cursor stays in `[0, 2N - 1]`, `start = max(0, end - N)`, and the shape is kept. |
| SignalBuffer.PullPackets | src/signal_buffer.py:42-88 | The loop drains the whole queue oldest first and returns its length. The buffer it leaves is the functional pull of the queue's rows. |
| SignalBuffer.Clear | src/signal_buffer.py:91-95 | Every cell becomes 0 and the cursor and start are unchanged. |
| SignalBuffer.PullAppend | src/signal_buffer.py:48-86 | Pulling `a + b` at once leaves the same buffer as pulling `a` and then `b`. |
| SignalBuffer.PullIsPullEach | src/signal_buffer.py:48-86 | One pull of `k` rows equals `k` pulls of one row each. |
| SignalBuffer.LastRowNeverWritten | src/signal_buffer.py:58-79 | No pull ever changes physical row `2N - 1`. |
| SignalBuffer.InvPull | src/signal_buffer.py:58-86 | The invariant relating the array to the history of pulled rows holds after every pull. |
| SignalBuffer.InitialFill | src/signal_buffer.py:58-86 | After `M <= N` rows have been pulled into a fresh buffer, the window is those rows in order followed by `N - M` rows of 8000. |
| SignalBuffer.WindowIsLastRows | src/signal_buffer.py:16-18 | Whenever `end > N` (and with no `clear`), the window is exactly the last `N` rows pulled, in arrival order. |
| SignalBuffer.FilledEnd | src/signal_buffer.py:58-86 | After `h` rows pulled into a fresh buffer, the cursor is `h` while `h < 2N`. After that it cycles through `N..2N-1` and returns to `N` at every wrap (`h = 2N, 3N, ...`). |
| SignalBuffer.StaleRowAfterWrap | src/signal_buffer.py:65 | At every wrap (`h >= 2N` rows and `h - 2N` a multiple of `N`, with `N >= 2`), the cursor is `N` and window row 0 still holds the first row ever pulled. Only the other `N - 1` rows are the most recent ones, so the window is not the last `N` rows. |
| SignalBuffer.StaleRowExample | src/signal_buffer.py:65 | With `N = 2`, pulling `[1], [2], [3], [4]` gives the window `[1], [4]`. |
| SignalBuffer.StaleRowSecondWrap | src/signal_buffer.py:65 | With `N = 2`, any six one-channel rows leave the window holding the first and the sixth (rows `[1]` to `[6]` give `[1], [6]`): the stale row comes back at the second wrap. |
| SignalBuffer.WriteRowMirrored | src/signal_buffer.py:58-79 | The corrected push, which mirrors from `rend >= N` on. It has the same frame conditions as `WriteRow` otherwise. |
| SignalBuffer.MirroredWindowIsLastRows | src/signal_buffer.py:16-18 | With the corrected push, once `N` rows have been pulled the window is exactly the last `N` of them, wrap or no wrap. |
| SignalBuffer.MirroredExample | src/signal_buffer.py:16-18 | With the corrected push, the instance above gives `[3], [4]`. |
| EmotivDevice.SetupKey | src/emotiv_device.py:164-186 | The key has 16 characters: `sn[-1]`..`sn[-4]` at positions 0/8, 2/10, 4/12 and 6/14, and the fixed characters at the odd positions. A serial shorter than four characters raises `IndexError`. |
| EmotivDevice.KeyDependsOnlyOnLastFour | src/emotiv_device.py:169-185 | Two serials give the same key if and only if their last four characters agree. |
| EmotivDevice.KeyOfApplicationSerial | src/wave_rider.py:308 | The key of `SN20120229000254` is `4\0 5T 2\x10 0B 4\0 5H 2\0 0P`. |
| EmotivDevice.DecryptFrame | src/emotiv_device.py:128 | The plaintext frame is the block decryption of ciphertext bytes 0..15 followed by the block decryption of bytes 16..31, under the same key. |
| EmotivDevice.DecryptHalvesIndependent | src/emotiv_device.py:128 | Each plaintext half is the block decryption of its own ciphertext half, independently of the other half. |
| EmotivDevice.ClearState | src/emotiv_device.py:49-64 | Gyro and battery are absent and all 14 CQ entries are 0. The queue and the subscribers are empty, both flags are down, the reader handle is dropped, the packet speed is 0, and the key is kept. |
| EmotivDevice.NewDevice | src/emotiv_device.py:35-46 | Construction succeeds exactly for serials of at least four characters. The new device has the derived key and the cleared state: no gyro or battery reading, all 14 CQ entries at 0, an empty queue, no subscribers, both flags down, no reader and a packet speed of 0. |
| EmotivDevice.Subscribe | src/emotiv_device.py:189-193 | The subscriber is appended and the earlier ones are kept; duplicates are allowed. |
| EmotivDevice.Unsubscribe | src/emotiv_device.py:195-199 | Only the first registration is removed and the rest keep their order. An absent callback raises `ValueError`. |
| EmotivDevice.UnsubscribeUndoesSubscribe | src/emotiv_device.py:189-199 | Unsubscribing a freshly subscribed callback restores the list. |
| EmotivDevice.UpdateState | src/emotiv_device.py:139-147 | Gyro is always overwritten. A reading that is present and non-zero replaces the battery; an absent or `0.0` reading keeps it. CQ changes only at the packet's sensor. Every other field of the device, the readers and the packet speed included, is unchanged. |
| EmotivDevice.EmptyBatteryReadingIgnored | src/emotiv_device.py:139-140 | A battery frame with counter byte 128..225 reads 0.0, and the device keeps its previous battery value. |
| EmotivDevice.HandleFrame | src/emotiv_device.py:128-147 | A frame is decrypted and decoded. The packet is queued first, then every subscriber is called with it in registration order, then the state is updated. |
| EmotivDevice.ReadFrames | src/emotiv_device.py:110-147 | The reader loop keeps the key, the subscribers and the flags. |
| EmotivDevice.ReadFramesQueue | src/emotiv_device.py:130-132 | The queue receives one packet per frame, in frame order. |
| EmotivDevice.ReadFramesEffects | src/emotiv_device.py:130-136 | Frame by frame, the reader queues that frame's decoded packet, then calls each subscriber with it in registration order, before moving to the next frame. So each frame makes exactly one call more than there are subscribers. |
| EmotivDevice.StartReader | src/emotiv_device.py:67-77 | `start_reader` does nothing while running. Otherwise it starts one more reader thread and changes nothing else, and it never raises `running` itself. |
| EmotivDevice.StartReaderTwice | src/emotiv_device.py:72-77 | The guard does not prevent a second reader. On a device that is not running, two calls start two reader threads, because only the reader itself sets `running` (line 107). On a running device both calls do nothing. |
| EmotivDevice.RunReader | src/emotiv_device.py:97-161 | The reader always exits with both flags down. A device that fails to open yields no packets. |
| EmotivDevice.StopReader | src/emotiv_device.py:80-94 | `stop_reader` does nothing while not running. Otherwise it ends with the flags down and the reader handle dropped. Nothing else changes: the key, the queue, the subscribers, the gyro, battery and contact-quality readings and the packet speed are kept. |
| EmotivDevice.ContactResistance | src/emotiv_device.py:202-221 | CQ < 260 gives "No contact" and CQ > 1026 gives "Excellent". Values 260..1026, bounds included, go to the polynomial. An unknown sensor raises `KeyError`. |
| EmotivDevice.ClearedContactsReadNoContact | src/emotiv_device.py:208-212 | After `clear_state` every sensor reads `(None, "No contact")`. |
| DeviceMonitor.NewMonitor | src/emotiv_device_monitor.py:15-20 | A monitor starts absent, with no stop request and no thread. An absent or empty callback list becomes an empty list. |
| DeviceMonitor.NotifyAll | src/emotiv_device_monitor.py:40-41 | Each callback is called once, in registration order, with the new state. |
| DeviceMonitor.CheckConnected | src/emotiv_device_monitor.py:32-44 | Callbacks are notified exactly when the observed presence differs from the current state. The observation is then recorded and returned. |
| DeviceMonitor.CheckConnectedIdempotent | src/emotiv_device_monitor.py:38-44 | A repeated check that sees the same presence notifies nobody and changes nothing. |
| DeviceMonitor.FirstAbsentCheckSilent | src/emotiv_device_monitor.py:19 | A fresh monitor whose first check finds no device notifies nobody. |
| DeviceMonitor.RunChecks | src/emotiv_device_monitor.py:54-56 | The polling loop keeps the callbacks, the device name, the thread handle and the stop flag. |
| DeviceMonitor.MonitorFunc | src/emotiv_device_monitor.py:47-56 | `monitor_func` clears the stop request and then polls. |
| DeviceMonitor.RunChecksCountsEdges | src/emotiv_device_monitor.py:37-56 | A run of observations produces one notification per callback per value change of `current_state :: obs`, and ends on the last observation. |
| DeviceMonitor.MonitorRoundsFromStart | src/emotiv_device_monitor.py:47-56 | From a fresh monitor, the notification rounds are the value changes of `False :: obs`. |
| DeviceMonitor.Start | src/emotiv_device_monitor.py:23-29 | A thread is created only when there is none. Nothing but the thread handle changes, so the device name, the callbacks, the state and the stop flag are kept. |
| DeviceMonitor.Stop | src/emotiv_device_monitor.py:59-65 | `stop` always sets the stop request and clears the handle. It raises `AttributeError` exactly when there was no thread. Only the stop flag and the handle change; the device name, the callbacks and the state are kept. |
| DeviceMonitor.StopAfterStartSucceeds | src/emotiv_device_monitor.py:59-65 | `stop` after `start` never fails. |
| SignalWriter.Record | src/signal_writer.py:40-43 | A record is counter, gyro X, gyro Y, the levels in order, then the CQ value. The last field is `-1` if and only if the counter is at least 14. |
| SignalWriter.DecodedRecord | src/signal_writer.py:41-43 | For a decoded packet the record has exactly 18 fields and no `None`. The last field is `-1` exactly for counter bytes of 14 or more, and the CQ level otherwise. |
| SignalWriter.ParseRender | src/signal_writer.py:45 | Every field as `str` prints it reads back as itself. |
| SignalWriter.RenderHasNoComma | src/signal_writer.py:45 | No printed field contains a comma. |
| SignalWriter.SplitJoin | src/signal_writer.py:45 | Splitting the `", "` join of comma-free fields on `", "` gives the fields back. |
| SignalWriter.LineRoundTrip | src/signal_writer.py:45-46 | A written line reads back as the record it came from. |
| SignalWriter.Line | src/signal_writer.py:45-46 | A written line ends with its one newline and holds no other, so every record is exactly one line of the file. |
| SignalWriter.NewWriter | src/signal_writer.py:18-23 | A new writer is not ready. |
| SignalWriter.Open | src/signal_writer.py:26-31 | `open` records the name. Success gives an empty file and failure keeps the previous handle. |
| SignalWriter.Close | src/signal_writer.py:33-35 | `close` makes the writer not ready. Closing without a file raises `AttributeError`. |
| SignalWriter.ReadyTracksHandle | src/signal_writer.py:37-38 | `ready()` is false for a new writer and true after a successful `open`; a failed `open` keeps the previous answer. It is false after `close` and kept by `write_packet`. |
| SignalWriter.WritePacket | src/signal_writer.py:40-46 | The packet's line is appended to the file. Writing without a file raises `AttributeError`. |
| SignalWriter.RecordingContents | src/signal_writer.py:40-46 | An open file holds exactly the lines of the packets written, in order. |
| SignalWriter.RecordedLineReadsBack | src/signal_writer.py:26-46 | Open, write one packet, read the file back: the result is the packet's record. |
| SignalRenderer.NewRenderer | src/signal_renderer_widget.py:28-29 | The selection starts as channels 0..13, strictly increasing, with multiplier 1. |
| SignalRenderer.SelectChannels | src/signal_renderer_widget.py:32-36 | The given list replaces the selection as is. |
| SignalRenderer.Toggle | src/signal_renderer_widget.py:44-48 | A shown channel loses one copy and a hidden one gains one, as multisets. |
| SignalRenderer.ToggleChannel | src/signal_renderer_widget.py:39-48 | Only the selection changes; the multiplier is kept. |
| SignalRenderer.ToggleFlipsMembership | src/signal_renderer_widget.py:44-48 | On a selection without repeats, sorted or not, a toggle flips the membership of `ndx` and of no other channel. |
| SignalRenderer.ToggleKeepsSorted | src/signal_renderer_widget.py:44-48 | A sorted selection stays sorted, and a strictly sorted one stays strictly sorted. |
| SignalRenderer.ToggleTwice | src/signal_renderer_widget.py:44-48 | On a strictly sorted selection, toggling the same channel twice restores it. |
| SignalRenderer.UpdateMagnification | src/signal_renderer_widget.py:53-54 | The multiplier becomes `max(0.4, m + u)`, so it never falls below 0.4. |
| WaveRider.Clamp | src/wave_rider.py:212-213 | The result lies in the bounds, equals the value inside them, and equals the nearer bound outside. |
| WaveRider.StepX | src/wave_rider.py:212 | Within 1 of 105 the x coordinate is unchanged. Otherwise it moves by `(105 - gx) * 4`, clamped to `[20, 800]`. |
| WaveRider.StepY | src/wave_rider.py:213 | Within 1 of 105 the y coordinate is unchanged. Otherwise it moves by `(gy - 105) * 4`, clamped to `[20, 600]`. |
| WaveRider.StepDirections | src/wave_rider.py:212-213 | Inside the box the cursor moves in the reading's direction and by at most the unclamped step. |
| WaveRider.BeginFrameCursor | src/wave_rider.py:211-214 | The cursor moves only while drawn and with both gyro readings present. |
| WaveRider.ToggleCursorRendering | src/wave_rider.py:190-194 | Showing the cursor recentres it at (400, 300). Hiding it keeps the position. |
| WaveRider.CursorStaysInBox | src/wave_rider.py:211-214 | A cursor inside `[20, 800] x [20, 600]` stays inside under any sequence of toggles and gyro frames. |
| WaveRider.InitialCursorStaysInBox | src/wave_rider.py:159-160 | From the initial (400, 300), the cursor never leaves the box. |
| WaveRider.Tick | src/wave_rider.py:174-181 | Past 10 the label is refreshed and the counter restarts at 0; otherwise it counts up. |
| WaveRider.TicksFrom | src/wave_rider.py:174-181 | From a counter below 12, `k` frames leave the counter at `(c + k) mod 12` and refresh `(c + k) div 12` times. |
| WaveRider.ThrottleFromStart | src/wave_rider.py:156 | From the initial 0, the counter stays in 0..11 and the label is refreshed on every twelfth frame. |
| AlbowRoot.Schedule | albow/root.py:258-263 | `schedule` adds the call `(now + delay, func)` once and keeps every other entry. |
| AlbowRoot.ScheduleKeepsOrder | albow/root.py:258-263 | A sorted schedule stays sorted. Taking the new entry out again gives the old schedule, so the other entries keep their order. |
| AlbowRoot.MakeScheduledCalls | albow/root.py:251-256 | The calls made are the head entries due by `t`, in order. What remains is the untouched suffix, whose head is not due. On a sorted schedule, exactly the entries with time `<= t` are called. |
| AlbowRoot.ModKeysPairs | albow/root.py:18-30 | Left and right keys map to the same flag. The flags are exactly the four modifier names. |
| AlbowRoot.SetModifier | albow/root.py:47-50 | Only the flag mapped from the key changes; other keys change nothing. |
| AlbowRoot.SetModifierVariantsAgree | albow/root.py:25-30 | Pressing either variant of a modifier has the same effect. |
| AlbowRoot.AddModifiers | albow/root.py:52-55 | The flags are copied over the event's attributes and `cmd` is set to `ctrl or meta`, read from the merged attributes. It raises `AttributeError` exactly when neither the event nor the flags have `ctrl`, or when `ctrl` is false and neither has `meta`. |
| AlbowRoot.CommandFlag | albow/root.py:52-55 | With the initial flags `cmd` is false; after pressing right Control it is true. |
| Lists.RemoveFirst | src/emotiv_device.py:199 | `list.remove` shortens the list by one and keeps every element before the first occurrence. |
| Lists.RemoveFirstSplits | src/emotiv_device.py:199 | `list.remove` cuts out exactly the first occurrence. |
| Lists.RemoveFirstContents | src/emotiv_device.py:199 | `list.remove` takes out one copy of the element and keeps every other element. |
| Lists.Insort | albow/root.py:263 | `bisect.insort` puts `x` at the binary-search point `p`. The elements before `p` and from `p` on are the old list's, so the result is one element longer and the old list with one more `x`. |
| Lists.BisectRightSplits | albow/root.py:263 | On a sorted list, the binary search of `insort` finds the point before which nothing is above `x` and from which everything is. |
| Lists.InsortSorted | albow/root.py:263 | `insort` keeps a sorted list sorted, and the other elements keep their order. |
| Lists.RemoveFirstUndoesInsort | src/signal_renderer_widget.py:44-48 | Removing a freshly inserted element restores the list. |
| Lists.InsortUndoesRemoveAt | src/signal_renderer_widget.py:44-48 | On a strictly sorted list, re-inserting a removed element restores the list. |

## Left out

- DataPacket.BatteryLevel, DataPacket.BatteryCorners, SignalRenderer.UpdateMagnification, AlbowRoot.Schedule and AlbowRoot.MakeScheduledCalls model Python floats as exact reals, and no rounding is modelled. The source computes `(float(counter) - 225.0) / (248.0 - 225.0)` (src/emotiv_data_packet.py:62), `self.multiplier + update` (src/signal_renderer_widget.py:54) and `time() + delay` (albow/root.py:262) in doubles. So the battery reading between the corners is only the double nearest to `(c - 225) / 23`, and rounding can turn two distinct due times into a tie, which changes where `insort` puts an entry. No contract here depends on rounding.
- AES itself is not modelled. Decryption is an arbitrary function from a 16-character key and a 16-byte block to a block, passed as a parameter.
- Threads, `select` polling, `join` and the thread-safety of the queue are not modelled. So is the race between `start_reader`'s `running` check and the reader setting it. The reader, the monitor and the scheduler are sequential functions over a sequence of observations or frames.
- Device and file I/O are not modelled. This covers opening, reading and closing the device, short reads (a frame is always 32 bytes), and the unbound `f` in `read_data`'s `finally` when opening fails. Whether the device opened, whether a file could be created, the device file's presence and the clock are all parameters.
- `packet_speed` is not updated by the model. The reader sets it to 0.0 on every `select` timeout (src/emotiv_device.py:115) and to 128 over the time of the last 128 frames on every frame (line 124). Both are wall-clock float timing. The model keeps only the reset to 0 in `clear_state`.
- EmotivDevice.ContactResistance does not evaluate the fourth-order polynomial or its `"%.0f kOhm"` label: the 260..1026 branch returns the raw value to be fitted. Other float-formatted labels are left out too.
- All drawing, layout, dialogs, the event loop and the GUI quit flow are out of the model.
- Re-entrant scheduling from inside a scheduled call is not modelled. Calls are opaque ids, and their order stands for the interpreter's order on functions.
- EmotivDevice.HandleFrame assumes subscribers do not raise. In the source only `IOError` is caught (src/emotiv_device.py:149), so a raising subscriber ends `read_data`. The packet is already queued (line 132), later subscribers and the state update are skipped, and `finally` lowers both flags (lines 154-157). EmotivDevice.ReadFrames inherits this assumption.
- DeviceMonitor.CheckConnected assumes callbacks do not raise. In the source a raising callback (src/emotiv_device_monitor.py:40-41) skips the `current_state` update and ends the monitor thread.
- SignalBuffer.Window returns a copy of the window rows. The source's `buffer()` returns a numpy view aliasing the array (src/signal_buffer.py:39), so a window handed out earlier changes with later pulls and with `clear`.
- EmotivDevice.StopReader models dropping the handle, not the threads. It joins only the newest reader; older readers started by repeated `start_reader` calls are neither joined nor tracked after the handle is dropped.
- SignalBuffer.New requires `buf_len >= 1`. With 0 the source's first pull indexes an empty array, and that error path is not modelled.
- SignalBuffer.WindowIsLastRows assumes no `clear` between pulls. `clear` zeroes the rows behind the history invariant, so a later window mixes zeros and data.
- SignalBuffer.Pull and SignalBuffer.PullPackets take the channel rows of the queued packets; the queue object itself is a sequence.
- DeviceMonitor.NewMonitor does not model aliasing of a non-empty `callback_list` the caller passes in. The monitor stores the caller's list object, so later changes the caller makes to it reach the monitor. The model's lists are values. (The default is not shared: `callback_list or []` builds a fresh list.)
- SignalRenderer.SelectChannels does not model aliasing of the caller's list. The widget stores the list object it is given (src/signal_renderer_widget.py:36), so later toggles change the caller's list in place. The model's lists are values.
- SignalWriter.Record models only integral floats. Levels and CQ values are integers converted to floats, so `str` prints them with a `.0` suffix, never in exponent form.
- AlbowRoot.AddModifiers models event attributes as named booleans. The toolkit's modifier keys are an abstract enumeration, because the key-code values are not part of the source.
- `src/eeg_renderer_widget.py` (a stub), the demo scripts and the test programs are not part of this model.

## Findings

| source | as written | input that shows it | evidently intended | confidence | as-written member | corrected member |
|---|---|---|---|---|---|---|
| src/signal_buffer.py:65 | The push mirrors row `rend` into row `rend - N` only when `rend > N`, so row 0 is never refreshed. At every wrap the window starts at stale row 0. | `N = 2`, one channel, rows `[1], [2], [3], [4]` pulled into a fresh buffer: the window is `[1], [4]` instead of `[3], [4]`. | Mirror when `rend >= N`, so the window is always the last `N` rows pulled (the class documentation, lines 16-18). | not executed | SignalBuffer.StaleRowAfterWrap | SignalBuffer.MirroredWindowIsLastRows |

=== FILE: albow_root.dfy ===
/** The two pieces of the toolkit's root module the application relies on:
    the time-ordered list of scheduled calls with its drain, and the
    modifier-key flags copied into every event. */
module AlbowRoot {
  import opened Wrappers
  import Lists

  /** A scheduled call: the time it is due and the callable, an opaque id
      whose order stands for the interpreter's order on functions. */
  datatype Entry = Entry(time: real, func: nat)

  /** Tuple comparison of `(time, func)`. */
  function EntryLess(a: Entry, b: Entry): bool {
    a.time < b.time || (a.time == b.time && a.func < b.func)
  }

  lemma EntryLessIsStrictWeakOrder()
    ensures Lists.StrictWeakOrder(EntryLess)
  {
    forall a: Entry, b: Entry, c: Entry | !EntryLess(a, b) && !EntryLess(b, c)
      ensures !EntryLess(a, c)
    {
      assert b.time < a.time || (b.time == a.time && b.func <= a.func);
    }
  }

  /** A schedule sorted by tuple order is sorted by time. */
  lemma SortedByTime(sched: seq<Entry>)
    requires Lists.SortedBy(EntryLess, sched)
    ensures forall i, j | 0 <= i < j < |sched| :: sched[i].time <= sched[j].time
  {
    forall i, j | 0 <= i < j < |sched| ensures sched[i].time <= sched[j].time {
      assert !EntryLess(sched[j], sched[i]);
    }
  }

  /** `schedule(delay, func)` at clock `now`: insert the call where the
      binary search on `(time, func)` puts it. */
  function Schedule(sched: seq<Entry>, now: real, delay: real, func: nat): (r: seq<Entry>)
    ensures |r| == |sched| + 1
    ensures Entry(now + delay, func) in r
    ensures multiset(r) == multiset(sched) + multiset{Entry(now + delay, func)}
  {
    var r := Lists.Insort(sched, Entry(now + delay, func), EntryLess);
    assert r[Lists.BisectRight(sched, Entry(now + delay, func), EntryLess, 0, |sched|)] == Entry(now + delay, func);
    r
  }

  /** Scheduling keeps the list sorted, and taking the new call out again
      gives the old list: the other calls keep their order. */
  lemma ScheduleKeepsOrder(sched: seq<Entry>, now: real, delay: real, func: nat)
    requires Lists.SortedBy(EntryLess, sched)
    ensures Lists.SortedBy(EntryLess, Schedule(sched, now, delay, func))
    ensures exists p | 0 <= p <= |sched| ::
      var r := Schedule(sched, now, delay, func);
      r[p] == Entry(now + delay, func) && r[..p] + r[p + 1..] == sched
  {
    EntryLessIsStrictWeakOrder();
    var x := Entry(now + delay, func);
    Lists.InsortSorted(sched, x, EntryLess);
    var p := Lists.BisectRight(sched, x, EntryLess, 0, |sched|);
    assert Schedule(sched, now, delay, func)[p] == x;
  }

  /** `make_scheduled_calls` at clock `t`: call and drop the head while it is
      due. Returns the calls made, in order, and what stays scheduled. */
  method MakeScheduledCalls(sched: seq<Entry>, t: real) returns (called: seq<nat>, remaining: seq<Entry>)
    ensures |called| <= |sched| && remaining == sched[|called|..]
    ensures forall i | 0 <= i < |called| :: called[i] == sched[i].func && sched[i].time <= t
    ensures remaining != [] ==> remaining[0].time > t
    ensures Lists.SortedBy(EntryLess, sched) ==>
      forall i | 0 <= i < |sched| :: i < |called| <==> sched[i].time <= t
  {
    var k := 0;
    called := [];
    while k < |sched| && sched[k].time <= t
      invariant k <= |sched| && |called| == k
      invariant forall i | 0 <= i < k :: called[i] == sched[i].func && sched[i].time <= t
    {
      called := called + [sched[k].func];
      k := k + 1;
    }
    remaining := sched[k..];
    if Lists.SortedBy(EntryLess, sched) {
      SortedByTime(sched);
    }
  }

  /** The keys that carry a modifier flag. */
  datatype KeyCode = LShift | RShift | LCtrl | RCtrl | LAlt | RAlt | LMeta | RMeta | OtherKey(code: int)

  /** `modkeys`: each modifier key to the name of its flag. */
  const ModKeys: map<KeyCode, string> := map[
    LShift := "shift", RShift := "shift",
    LCtrl := "ctrl", RCtrl := "ctrl",
    LAlt := "alt", RAlt := "alt",
    LMeta := "meta", RMeta := "meta"]

  /** The module-level `modifiers`: all four flags down. */
  const InitialModifiers: map<string, bool> := map["shift" := false, "ctrl" := false, "alt" := false, "meta" := false]

  /** Both variants of a modifier set the same flag, and there are exactly
      the four flags of the modifier table. */
  lemma ModKeysPairs()
    ensures ModKeys[LShift] == ModKeys[RShift] == "shift"
    ensures ModKeys[LCtrl] == ModKeys[RCtrl] == "ctrl"
    ensures ModKeys[LAlt] == ModKeys[RAlt] == "alt"
    ensures ModKeys[LMeta] == ModKeys[RMeta] == "meta"
    ensures ModKeys.Values == InitialModifiers.Keys
    ensures forall k | k in ModKeys :: !k.OtherKey?
  {
    assert ModKeys[LShift] in ModKeys.Values && ModKeys[LCtrl] in ModKeys.Values;
    assert ModKeys[LAlt] in ModKeys.Values && ModKeys[LMeta] in ModKeys.Values;
  }

  /** `set_modifier(key, value)`: a modifier key sets its flag, any other key
      changes nothing. */
  function SetModifier(mods: map<string, bool>, key: KeyCode, value: bool): (r: map<string, bool>)
    ensures key !in ModKeys ==> r == mods
    ensures key in ModKeys ==> r.Keys == mods.Keys + {ModKeys[key]} && r[ModKeys[key]] == value
    ensures forall name | name in mods && (key !in ModKeys || name != ModKeys[key]) :: r[name] == mods[name]
  {
    if key in ModKeys && ModKeys[key] != "" then mods[ModKeys[key] := value] else mods
  }

  /** Pressing either variant has the same effect. */
  lemma SetModifierVariantsAgree(mods: map<string, bool>, value: bool)
    ensures SetModifier(mods, LShift, value) == SetModifier(mods, RShift, value)
    ensures SetModifier(mods, LCtrl, value) == SetModifier(mods, RCtrl, value)
    ensures SetModifier(mods, LAlt, value) == SetModifier(mods, RAlt, value)
    ensures SetModifier(mods, LMeta, value) == SetModifier(mods, RMeta, value)
  {
    ModKeysPairs();
    assert SetModifier(mods, LShift, value) == mods["shift" := value];
    assert SetModifier(mods, LCtrl, value) == mods["ctrl" := value];
    assert SetModifier(mods, LAlt, value) == mods["alt" := value];
    assert SetModifier(mods, LMeta, value) == mods["meta" := value];
  }

  /** `add_modifiers(event)` on the event's attribute dictionary: copy every
      flag in, then set `cmd` to `ctrl or meta`; reading an attribute that
      neither the event nor the flags provide raises `AttributeError`
      (`meta` is read only when `ctrl` is false). */
  function AddModifiers(event: map<string, bool>, mods: map<string, bool>): (r: Result<map<string, bool>>)
    ensures r.Failure? <==>
      ("ctrl" !in event && "ctrl" !in mods) ||
      (!(event + mods)["ctrl"] && "meta" !in event && "meta" !in mods)
    ensures r.Failure? ==> r.error == AttributeError
    ensures r.Success? ==> r.value.Keys == event.Keys + mods.Keys + {"cmd"}
    ensures r.Success? ==> forall name | name in mods && name != "cmd" :: r.value[name] == mods[name]
    ensures r.Success? ==> forall name | name in event && name !in mods && name != "cmd" :: r.value[name] == event[name]
    ensures r.Success? ==>
      r.value["cmd"] == ((event + mods)["ctrl"] || ("meta" in event + mods && (event + mods)["meta"]))
  {
    var d := event + mods;
    if "ctrl" !in d then Failure(AttributeError)
    else if d["ctrl"] then Success(d["cmd" := true])
    else if "meta" !in d then Failure(AttributeError)
    else Success(d["cmd" := d["meta"]])
  }

  /** With the flags as the module starts, every event gets `cmd` false; a
      pressed right Control turns it on. */
  lemma CommandFlag(event: map<string, bool>)
    ensures AddModifiers(event, InitialModifiers).Success?
    ensures !AddModifiers(event, InitialModifiers).value["cmd"]
    ensures AddModifiers(event, SetModifier(InitialModifiers, RCtrl, true)).value["cmd"]
  {
  }
}

=== FILE: data_packet.dfy ===
/** The decoder of one decrypted 32-byte headset frame into a data packet:
    the packet counter (or battery reading), the two gyro bytes, fourteen
    14-bit electrode levels and, on counters 0..13, one contact-quality sample. */
module DataPacket {
  import opened Wrappers

  type byte = x: int | 0 <= x < 256

  /** A decrypted frame, the concatenation of two 16-byte AES blocks. */
  type Frame = f: seq<byte> | |f| == 32 witness seq(32, _ => 0)

  /** Absolute bit offsets of every channel level and of the contact-quality
      slot. Offset `b` addresses bit `b % 8` of byte `b / 8 + 1`; entry 13 is the
      most significant bit of the level, entry 0 the least. */
  const SensorBits: map<string, seq<nat>> := map[
    "F3"  := [10, 11, 12, 13, 14, 15, 0, 1, 2, 3, 4, 5, 6, 7],
    "FC6" := [214, 215, 200, 201, 202, 203, 204, 205, 206, 207, 192, 193, 194, 195],
    "P7"  := [84, 85, 86, 87, 72, 73, 74, 75, 76, 77, 78, 79, 64, 65],
    "T8"  := [160, 161, 162, 163, 164, 165, 166, 167, 152, 153, 154, 155, 156, 157],
    "F7"  := [48, 49, 50, 51, 52, 53, 54, 55, 40, 41, 42, 43, 44, 45],
    "F8"  := [178, 179, 180, 181, 182, 183, 168, 169, 170, 171, 172, 173, 174, 175],
    "T7"  := [66, 67, 68, 69, 70, 71, 56, 57, 58, 59, 60, 61, 62, 63],
    "P8"  := [158, 159, 144, 145, 146, 147, 148, 149, 150, 151, 136, 137, 138, 139],
    "AF4" := [196, 197, 198, 199, 184, 185, 186, 187, 188, 189, 190, 191, 176, 177],
    "F4"  := [216, 217, 218, 219, 220, 221, 222, 223, 208, 209, 210, 211, 212, 213],
    "AF3" := [46, 47, 32, 33, 34, 35, 36, 37, 38, 39, 24, 25, 26, 27],
    "O2"  := [140, 141, 142, 143, 128, 129, 130, 131, 132, 133, 134, 135, 120, 121],
    "O1"  := [102, 103, 88, 89, 90, 91, 92, 93, 94, 95, 80, 81, 82, 83],
    "FC5" := [28, 29, 30, 31, 16, 17, 18, 19, 20, 21, 22, 23, 8, 9],
    "CQ"  := [119, 104, 105, 106, 107, 108, 109, 110, 111, 96, 97, 98, 99, 100]
  ]

  /** Column of each sensor in a packet's level array. */
  const SensorIdToNdx: map<string, nat> := map[
    "F3" := 0, "FC5" := 1, "AF3" := 2, "F7" := 3, "T7" := 4, "P7" := 5,
    "O1" := 6, "O2" := 7, "P8" := 8, "T8" := 9, "F8" := 10, "AF4" := 11,
    "FC6" := 12, "F4" := 13
  ]

  /** Sensor of each column; also the sensor whose contact quality a packet
      with that counter carries. */
  const CounterToSensorId: seq<string> := [
    "F3", "FC5", "AF3", "F7", "T7", "P7", "O1", "O2",
    "P8", "T8", "F8", "AF4", "FC6", "F4"
  ]

  const ChannelCount := 14
  const CqKey := "CQ"

  /** Largest bit offset a table may hold: its byte `b / 8 + 1` must exist. */
  const FrameBits := 248

  function Pow2(k: nat): (r: nat)
    ensures r >= 1
  {
    if k == 0 then 1 else 2 * Pow2(k - 1)
  }

  /** Bit `i` of a non-negative integer: Python's `(v >> i) & 1`. */
  function NthBit(v: nat, i: nat): (r: nat)
    ensures r < 2
  {
    if i == 0 then v % 2 else NthBit(v / 2, i - 1)
  }

  /** A bit-position table the decoder can use without an index error. */
  predicate IsBitTable(t: seq<nat>) {
    |t| == ChannelCount && forall i | 0 <= i < |t| :: t[i] < FrameBits
  }

  /** The bit at absolute offset `b`; byte 0 (the counter) is skipped. */
  function FrameBit(frame: Frame, b: nat): (r: nat)
    requires b < FrameBits
    ensures r < 2
  {
    NthBit(frame[b / 8 + 1], b % 8)
  }

  /** The bits a table selects, least significant first. */
  function TableBits(frame: Frame, t: seq<nat>): (bits: seq<nat>)
    requires IsBitTable(t)
    ensures |bits| == ChannelCount
    ensures forall i | 0 <= i < ChannelCount :: bits[i] == FrameBit(frame, t[i])
  {
    seq(ChannelCount, i requires 0 <= i < ChannelCount => FrameBit(frame, t[i]))
  }

  /** Little-endian value of a bit string. */
  function BitsValue(bits: seq<nat>): nat {
    if |bits| == 0 then 0 else bits[0] + 2 * BitsValue(bits[1..])
  }

  /** The 14-bit level a table selects. */
  function Level(frame: Frame, t: seq<nat>): nat
    requires IsBitTable(t)
  {
    BitsValue(TableBits(frame, t))
  }

  /** `get_bits_from_raw`: walks the table from entry 13 down to entry 0,
      shifting the level left and or-ing in one frame bit per step. */
  method GetBitsFromRaw(frame: Frame, t: seq<nat>) returns (level: nat)
    requires IsBitTable(t)
    ensures level == Level(frame, t)
    ensures level < Pow2(ChannelCount)
    ensures forall i | 0 <= i < ChannelCount :: NthBit(level, i) == FrameBit(frame, t[i])
  {
    ghost var bits := TableBits(frame, t);
    level := 0;
    var i := ChannelCount;
    while i > 0
      invariant 0 <= i <= ChannelCount
      invariant level == BitsValue(bits[i..])
    {
      i := i - 1;
      var b, o := t[i] / 8, t[i] % 8;
      // `level <<= 1` clears bit 0, so the following `|=` of one bit is an addition
      level := 2 * level + NthBit(frame[b + 1], o);
      assert bits[i..][1..] == bits[i + 1..];
    }
    assert bits[0..] == bits;
    LevelBounded(frame, t);
    forall i | 0 <= i < ChannelCount
      ensures NthBit(level, i) == FrameBit(frame, t[i])
    {
      LevelBit(frame, t, i);
    }
  }

  /** An `n`-bit string has a value below `2^n`. */
  lemma {:induction false} BitsValueBound(bits: seq<nat>)
    requires forall i | 0 <= i < |bits| :: bits[i] < 2
    ensures BitsValue(bits) < Pow2(|bits|)
  {
    if |bits| > 0 {
      BitsValueBound(bits[1..]);
    }
  }

  /** Bit `i` of the value of a bit string is the string's entry `i`. */
  lemma {:induction false} BitsValueBit(bits: seq<nat>, i: nat)
    requires forall j | 0 <= j < |bits| :: bits[j] < 2
    requires i < |bits|
    ensures NthBit(BitsValue(bits), i) == bits[i]
  {
    if i > 0 {
      BitsValueBit(bits[1..], i - 1);
      assert (bits[0] + 2 * BitsValue(bits[1..])) / 2 == BitsValue(bits[1..]);
    }
  }

  /** Every decoded level lies in `[0, 16384)`. */
  lemma LevelBounded(frame: Frame, t: seq<nat>)
    requires IsBitTable(t)
    ensures Level(frame, t) < 16384
  {
    BitsValueBound(TableBits(frame, t));
    assert Pow2(ChannelCount) == 16384;
  }

  /** Bit `i` of a level is bit `t[i] mod 8` of frame byte `t[i] div 8 + 1`:
      entry 0 of the table is the least significant bit, entry 13 the most. */
  lemma LevelBit(frame: Frame, t: seq<nat>, i: nat)
    requires IsBitTable(t)
    requires i < ChannelCount
    ensures NthBit(Level(frame, t), i) == NthBit(frame[t[i] / 8 + 1], t[i] % 8)
  {
    BitsValueBit(TableBits(frame, t), i);
  }

  /** The fourteen channel names, as `sensor_id_to_ndx` lists them. */
  predicate IsSensorId(name: string) {
    name in SensorIdToNdx
  }

  /** `counter_to_sensor_id` and `sensor_id_to_ndx` are inverse bijections
      between the 14 names and the indices 0..13, and every name has a table. */
  lemma SensorTablesAgree()
    ensures |CounterToSensorId| == ChannelCount
    ensures forall i | 0 <= i < ChannelCount ::
      CounterToSensorId[i] in SensorIdToNdx && SensorIdToNdx[CounterToSensorId[i]] == i
    ensures forall name | name in SensorIdToNdx ::
      SensorIdToNdx[name] < ChannelCount && CounterToSensorId[SensorIdToNdx[name]] == name
    ensures SensorBits.Keys == SensorIdToNdx.Keys + {CqKey}
    ensures CqKey !in SensorIdToNdx
  {
    CounterToNdx();
    NdxToCounter();
    TableKeys();
  }

  lemma CounterToNdx()
    ensures forall i | 0 <= i < ChannelCount ::
      CounterToSensorId[i] in SensorIdToNdx && SensorIdToNdx[CounterToSensorId[i]] == i
  {
    forall i | 0 <= i < ChannelCount
      ensures CounterToSensorId[i] in SensorIdToNdx && SensorIdToNdx[CounterToSensorId[i]] == i
    {
      if i < 7 {
        assert i == 0 || i == 1 || i == 2 || i == 3 || i == 4 || i == 5 || i == 6;
      } else {
        assert i == 7 || i == 8 || i == 9 || i == 10 || i == 11 || i == 12 || i == 13;
      }
    }
  }

  lemma NdxToCounter()
    ensures forall name | name in SensorIdToNdx ::
      SensorIdToNdx[name] < ChannelCount && CounterToSensorId[SensorIdToNdx[name]] == name
  {
    IdKeys();
    forall name | name in SensorIdToNdx
      ensures SensorIdToNdx[name] < ChannelCount && CounterToSensorId[SensorIdToNdx[name]] == name
    {
    }
  }

  lemma TableKeys()
    ensures SensorBits.Keys == SensorIdToNdx.Keys + {CqKey}
    ensures CqKey !in SensorIdToNdx
  {
    IdKeys();
    BitsKeys();
  }

  lemma IdKeys()
    ensures SensorIdToNdx.Keys == {"F3", "FC5", "AF3", "F7", "T7", "P7", "O1", "O2", "P8", "T8", "F8", "AF4", "FC6", "F4"}
  {
  }

  lemma BitsKeys()
    ensures SensorBits.Keys == {"F3", "FC5", "AF3", "F7", "T7", "P7", "O1", "O2", "P8", "T8", "F8", "AF4", "FC6", "F4", "CQ"}
  {
  }

  /** Every table has 14 entries, all below 224: decoding reads bytes 1..28 only. */
  lemma TablesWellFormed()
    ensures forall name | name in SensorBits :: IsBitTable(SensorBits[name])
    ensures forall name, i | name in SensorBits && 0 <= i < |SensorBits[name]| ::
      SensorBits[name][i] < 224
  {
    BitsKeys();
    TablesWellFormedA();
    TablesWellFormedB();
    TablesWellFormedC();
    TablesWellFormedD();
    TablesWellFormedE();
    forall name | name in SensorBits
      ensures ReadsPayloadOnly(SensorBits[name])
    {
    }
  }

  lemma TablesWellFormedA()
    ensures ReadsPayloadOnly(SensorBits["F3"])
    ensures ReadsPayloadOnly(SensorBits["FC6"])
    ensures ReadsPayloadOnly(SensorBits["P7"])
  {
  }

  lemma TablesWellFormedB()
    ensures ReadsPayloadOnly(SensorBits["T8"])
    ensures ReadsPayloadOnly(SensorBits["F7"])
    ensures ReadsPayloadOnly(SensorBits["F8"])
  {
  }

  lemma TablesWellFormedC()
    ensures ReadsPayloadOnly(SensorBits["T7"])
    ensures ReadsPayloadOnly(SensorBits["P8"])
    ensures ReadsPayloadOnly(SensorBits["AF4"])
  {
  }

  lemma TablesWellFormedD()
    ensures ReadsPayloadOnly(SensorBits["F4"])
    ensures ReadsPayloadOnly(SensorBits["AF3"])
    ensures ReadsPayloadOnly(SensorBits["O2"])
  {
  }

  lemma TablesWellFormedE()
    ensures ReadsPayloadOnly(SensorBits["O1"])
    ensures ReadsPayloadOnly(SensorBits["FC5"])
    ensures ReadsPayloadOnly(SensorBits["CQ"])
  {
  }

  predicate ReadsPayloadOnly(t: seq<nat>) {
    |t| == ChannelCount && forall i | 0 <= i < |t| :: t[i] < 224
  }

  /** The table of the sensor in column `i`. */
  function ChannelTable(i: nat): (t: seq<nat>)
    requires i < ChannelCount
    ensures IsBitTable(t)
  {
    SensorTablesAgree();
    TablesWellFormed();
    SensorBits[CounterToSensorId[i]]
  }

  function CqTable(): (t: seq<nat>)
    ensures IsBitTable(t)
  {
    TablesWellFormed();
    SensorBits[CqKey]
  }

  /** The contact-quality sample a packet may carry. */
  datatype CqSample = CqSample(id: string, val: nat)

  /** `EmotivDataPacket`; levels are integral, the source keeps them as floats. */
  datatype Packet = Packet(
    counter: nat,
    battery: Option<real>,
    sync: bool,
    gyroX: byte,
    gyroY: byte,
    eeg: seq<nat>,
    cq: Option<CqSample>)

  /** Battery fraction of a counter byte above 127: `(c - 225) / (248 - 225)`
      clamped to `[0, 1]`. */
  function BatteryLevel(c: byte): (r: real)
    requires c > 127
    ensures 0.0 <= r <= 1.0
  {
    var raw := (c as real - 225.0) / (248.0 - 225.0);
    var capped := if raw < 1.0 then raw else 1.0;
    if capped > 0.0 then capped else 0.0
  }

  /** The battery mapping at its corners: 128..225 read empty, 248 and above
      read full, and in between the fraction grows linearly. */
  lemma BatteryCorners(c: byte)
    requires c > 127
    ensures c <= 225 ==> BatteryLevel(c) == 0.0
    ensures c >= 248 ==> BatteryLevel(c) == 1.0
    ensures 225 <= c <= 248 ==> BatteryLevel(c) == (c - 225) as real / 23.0
    ensures BatteryLevel(c) == 0.0 <==> c <= 225
  {
  }

  /** Decodes one frame (`EmotivDataPacket.__init__`). */
  function Decode(frame: Frame): (p: Packet)
    ensures p.counter <= 128
    ensures frame[0] > 127 ==> p.counter == 128 && p.battery == Some(BatteryLevel(frame[0]))
    ensures frame[0] <= 127 ==> p.counter == frame[0] && p.battery == None
    ensures !p.sync
    ensures p.gyroX == frame[29] && p.gyroY == frame[30]
    ensures |p.eeg| == ChannelCount
    ensures forall i | 0 <= i < ChannelCount :: p.eeg[i] < 16384
    ensures p.cq.Some? <==> p.counter < ChannelCount
    ensures p.cq.Some? ==> p.cq.value.id == CounterToSensorId[p.counter] && p.cq.value.val < 16384
    ensures p.battery.Some? ==> p.cq == None
  {
    var c := frame[0];
    var counter: nat := if c > 127 then 128 else c;
    var battery := if c > 127 then Some(BatteryLevel(c)) else None;
    var eeg := seq(ChannelCount, i requires 0 <= i < ChannelCount => Level(frame, ChannelTable(i)));
    var cq := if counter < ChannelCount
      then Some(CqSample(CounterToSensorId[counter], Level(frame, CqTable())))
      else None;
    assert forall i | 0 <= i < ChannelCount :: eeg[i] < 16384 by {
      forall i | 0 <= i < ChannelCount ensures eeg[i] < 16384 {
        LevelBounded(frame, ChannelTable(i));
      }
    }
    LevelBounded(frame, CqTable());
    Packet(counter, battery, counter == 0xE9, frame[29], frame[30], eeg, cq)
  }

  /** Column `i` of a packet is decoded with the table of sensor
      `counter_to_sensor_id[i]`, bit by bit. */
  lemma DecodeChannelBits(frame: Frame, i: nat, j: nat)
    requires i < ChannelCount && j < ChannelCount
    ensures CounterToSensorId[i] in SensorBits
    ensures var t := SensorBits[CounterToSensorId[i]];
      NthBit(Decode(frame).eeg[i], j) == NthBit(frame[t[j] / 8 + 1], t[j] % 8)
  {
    SensorTablesAgree();
    LevelBit(frame, ChannelTable(i), j);
  }

  /** The contact-quality value is decoded with the `CQ` table, bit by bit. */
  lemma DecodeCqBits(frame: Frame, j: nat)
    requires Decode(frame).cq.Some? && j < ChannelCount
    ensures var t := SensorBits[CqKey];
      NthBit(Decode(frame).cq.value.val, j) == NthBit(frame[t[j] / 8 + 1], t[j] % 8)
  {
    LevelBit(frame, CqTable(), j);
  }

  /** Frames agreeing on bytes 1..28 give equal levels for every table. */
  lemma LevelIgnoresUnusedBytes(a: Frame, b: Frame, t: seq<nat>)
    requires IsBitTable(t) && forall i | 0 <= i < |t| :: t[i] < 224
    requires a[1..29] == b[1..29]
    ensures Level(a, t) == Level(b, t)
  {
    assert forall i | 0 <= i < ChannelCount :: a[t[i] / 8 + 1] == b[t[i] / 8 + 1] by {
      forall i | 0 <= i < ChannelCount ensures a[t[i] / 8 + 1] == b[t[i] / 8 + 1] {
        assert a[t[i] / 8 + 1] == a[1..29][t[i] / 8];
      }
    }
    assert TableBits(a, t) == TableBits(b, t);
  }

  /** Channel levels and the contact-quality value do not depend on bytes 0,
      29, 30 or 31. */
  lemma DecodeIgnoresUnusedBytes(a: Frame, b: Frame)
    requires a[1..29] == b[1..29]
    ensures Decode(a).eeg == Decode(b).eeg
    ensures Decode(a).cq.Some? && Decode(b).cq.Some? ==>
      Decode(a).cq.value.val == Decode(b).cq.value.val
  {
    TablesWellFormed();
    forall i | 0 <= i < ChannelCount
      ensures Decode(a).eeg[i] == Decode(b).eeg[i]
    {
      LevelIgnoresUnusedBytes(a, b, ChannelTable(i));
    }
    LevelIgnoresUnusedBytes(a, b, CqTable());
  }

  /** `__getattr__`: the level of a channel by name; an unknown name raises
      `KeyError`, a short level array `IndexError`. */
  function GetAttr(p: Packet, name: string): (r: Result<nat>)
    ensures r.Failure? <==> name !in SensorIdToNdx || SensorIdToNdx[name] >= |p.eeg|
    ensures name !in SensorIdToNdx ==> r == Failure(KeyError)
  {
    if name !in SensorIdToNdx then Failure(KeyError)
    else if SensorIdToNdx[name] < |p.eeg| then Success(p.eeg[SensorIdToNdx[name]])
    else Failure(IndexError)
  }

  /** Reading a channel of a decoded packet by name gives the level of that
      name's own table. */
  lemma GetAttrDecoded(frame: Frame, name: string)
    requires IsSensorId(name)
    ensures name in SensorBits && IsBitTable(SensorBits[name])
    ensures GetAttr(Decode(frame), name) == Success(Level(frame, SensorBits[name]))
  {
    SensorTablesAgree();
    TablesWellFormed();
  }
}

=== FILE: device_monitor.dfy ===
/** The presence monitor: a two-state machine over the observed existence of
    the device file that notifies every registered callback on each edge.
    The polling thread becomes a sequence of observations. */
module DeviceMonitor {
  import opened Wrappers

  /** Identity of a registered callback; the callbacks themselves are opaque. */
  type Callback = nat

  /** One callback invocation `cb(new_state)`. */
  datatype Notification = Notification(callback: Callback, connected: bool)

  /** `EmotivDeviceMonitor`: the device path, the callbacks, the last observed
      presence, the stop request and whether a monitoring thread exists. */
  datatype Monitor = Monitor(
    devName: string,
    callbacks: seq<Callback>,
    currentState: bool,
    stopMonitoring: bool,
    hasThread: bool)

  /** The constructor: an absent or empty callback list becomes a fresh empty
      list; the device is assumed absent until the first check. */
  function NewMonitor(devName: string, callbackList: Option<seq<Callback>>): (m: Monitor)
    ensures m.devName == devName
    ensures callbackList.Some? ==> m.callbacks == callbackList.value
    ensures callbackList.None? ==> m.callbacks == []
    ensures !m.currentState && !m.stopMonitoring && !m.hasThread
  {
    var callbacks := if callbackList.Some? && callbackList.value != [] then callbackList.value else [];
    Monitor(devName, callbacks, false, false, false)
  }

  /** Each callback once, in registration order, with the new state. */
  function NotifyAll(callbacks: seq<Callback>, connected: bool): (ns: seq<Notification>)
    ensures |ns| == |callbacks|
    ensures forall i | 0 <= i < |callbacks| :: ns[i] == Notification(callbacks[i], connected)
  {
    seq(|callbacks|, i requires 0 <= i < |callbacks| => Notification(callbacks[i], connected))
  }

  /** `check_connected`, given whether the device file exists: notifies on a
      change only, then records and returns the observation. */
  function CheckConnected(m: Monitor, present: bool): (r: (Monitor, seq<Notification>, bool))
    ensures r.2 == present && r.0.currentState == present
    ensures present != m.currentState ==> r.1 == NotifyAll(m.callbacks, present)
    ensures present == m.currentState ==> r.1 == []
    ensures r.0 == m.(currentState := present)
  {
    var notified := if present != m.currentState then NotifyAll(m.callbacks, present) else [];
    (m.(currentState := present), notified, present)
  }

  /** A second check that sees the same presence notifies nobody and changes
      nothing. */
  lemma CheckConnectedIdempotent(m: Monitor, present: bool)
    ensures var first := CheckConnected(m, present);
      CheckConnected(first.0, present) == (first.0, [], present)
  {
  }

  /** A fresh monitor that first sees no device notifies nobody. */
  lemma FirstAbsentCheckSilent(devName: string, callbackList: Option<seq<Callback>>)
    ensures CheckConnected(NewMonitor(devName, callbackList), false).1 == []
  {
  }

  /** The number of value changes between neighbours, counted from the back. */
  function Changes(s: seq<bool>): nat
    decreases |s|
  {
    if |s| < 2 then 0
    else Changes(s[..|s| - 1]) + (if s[|s| - 2] != s[|s| - 1] then 1 else 0)
  }

  /** The checks `monitor_func` makes before it sees the stop request, one
      per observation, in order. */
  function RunChecks(m: Monitor, obs: seq<bool>): (r: (Monitor, seq<Notification>))
    ensures r.0.callbacks == m.callbacks && r.0.devName == m.devName
    ensures r.0.hasThread == m.hasThread && r.0.stopMonitoring == m.stopMonitoring
    decreases |obs|
  {
    if obs == [] then (m, [])
    else
      var step := CheckConnected(m, obs[0]);
      var rest := RunChecks(step.0, obs[1..]);
      (rest.0, step.1 + rest.1)
  }

  /** `monitor_func`: clear the stop request, then poll. */
  function MonitorFunc(m: Monitor, obs: seq<bool>): (r: (Monitor, seq<Notification>))
    ensures r.0.callbacks == m.callbacks && r.0.hasThread == m.hasThread
    ensures !r.0.stopMonitoring
  {
    RunChecks(m.(stopMonitoring := false), obs)
  }

  lemma {:induction false} ChangesCons(c: bool, s: seq<bool>)
    requires s != []
    ensures Changes([c] + s) == (if c != s[0] then 1 else 0) + Changes(s)
    decreases |s|
  {
    var t := [c] + s;
    if |s| >= 2 {
      var init := s[..|s| - 1];
      ChangesCons(c, init);
      assert t[..|t| - 1] == [c] + init;
      assert t[|t| - 2] == s[|s| - 2] && t[|t| - 1] == s[|s| - 1];
    } else {
      assert t[..|t| - 1] == [c];
    }
  }

  /** Over a run of observations every callback is told about each edge of
      `currentState :: obs` exactly once, and the monitor ends on the last
      observation. */
  lemma RunChecksCountsEdges(m: Monitor, obs: seq<bool>)
    ensures |RunChecks(m, obs).1| == Changes([m.currentState] + obs) * |m.callbacks|
    ensures RunChecks(m, obs).0.currentState == if obs == [] then m.currentState else obs[|obs| - 1]
  {
    RunChecksCount(m, obs);
    RunChecksLast(m, obs);
  }

  lemma {:induction false} RunChecksCount(m: Monitor, obs: seq<bool>)
    ensures |RunChecks(m, obs).1| == Changes([m.currentState] + obs) * |m.callbacks|
    decreases |obs|
  {
    if obs != [] {
      var m' := m.(currentState := obs[0]);
      RunChecksStep(m, obs);
      RunChecksCount(m', obs[1..]);
      assert [obs[0]] + obs[1..] == obs;
      ChangesCons(m.currentState, obs);
      var k := if m.currentState != obs[0] then 1 else 0;
      AddRounds(|CheckConnected(m, obs[0]).1|, |RunChecks(m', obs[1..]).1|, k, Changes(obs),
        Changes([m.currentState] + obs), |m.callbacks|);
    }
  }

  lemma {:induction false} RunChecksLast(m: Monitor, obs: seq<bool>)
    ensures RunChecks(m, obs).0.currentState == if obs == [] then m.currentState else obs[|obs| - 1]
    decreases |obs|
  {
    if obs != [] {
      RunChecksStep(m, obs);
      RunChecksLast(m.(currentState := obs[0]), obs[1..]);
    }
  }

  /** The first check of a run, and the rest of the run from its result. */
  lemma RunChecksStep(m: Monitor, obs: seq<bool>)
    requires obs != []
    ensures var m' := m.(currentState := obs[0]);
      && |CheckConnected(m, obs[0]).1| == (if m.currentState != obs[0] then |m.callbacks| else 0)
      && |RunChecks(m, obs).1| == |CheckConnected(m, obs[0]).1| + |RunChecks(m', obs[1..]).1|
      && RunChecks(m, obs).0 == RunChecks(m', obs[1..]).0
      && m'.callbacks == m.callbacks && m'.currentState == obs[0]
  {
  }

  /** One round of `k` edges followed by `c` more notifies `k + c` times
      per callback. */
  lemma AddRounds(first: nat, rest: nat, k: nat, c: nat, total: nat, callbacks: nat)
    requires k <= 1 && first == (if k == 1 then callbacks else 0)
    requires rest == c * callbacks && total == k + c
    ensures first + rest == total * callbacks
  {
  }

  /** A fresh monitor's rounds are the edges of `False :: obs`. */
  lemma MonitorRoundsFromStart(devName: string, callbackList: Option<seq<Callback>>, obs: seq<bool>)
    ensures var m := NewMonitor(devName, callbackList);
      |MonitorFunc(m, obs).1| == Changes([false] + obs) * |m.callbacks|
  {
    var m := NewMonitor(devName, callbackList);
    RunChecksCountsEdges(m.(stopMonitoring := false), obs);
  }

  /** `start`: a thread is created only when there is none. */
  function Start(m: Monitor): (m': Monitor)
    ensures m'.hasThread
    ensures m.hasThread ==> m' == m
    ensures m'.callbacks == m.callbacks && m'.currentState == m.currentState
    ensures m'.(hasThread := m.hasThread) == m
  {
    if m.hasThread then m else m.(hasThread := true)
  }

  /** `stop`: request the stop, join, drop the handle; without a thread the
      join is attempted on `None` and raises `AttributeError` after the stop
      request was already set. */
  function Stop(m: Monitor): (r: (Monitor, Option<Error>))
    ensures r.0.stopMonitoring && !r.0.hasThread
    ensures r.1 == Some(AttributeError) <==> !m.hasThread
    ensures r.1 == None <==> m.hasThread
    ensures r.0.callbacks == m.callbacks && r.0.currentState == m.currentState
    ensures r.0.(stopMonitoring := m.stopMonitoring, hasThread := m.hasThread) == m
  {
    var requested := m.(stopMonitoring := true);
    if !m.hasThread then (requested, Some(AttributeError))
    else (requested.(hasThread := false), None)
  }

  /** Stopping a started monitor succeeds whether or not it was running. */
  lemma StopAfterStartSucceeds(m: Monitor)
    ensures Stop(Start(m)).1 == None
    ensures !Stop(Start(m)).0.hasThread
  {
  }
}

=== FILE: emotiv_device.dfy ===
/** The device side of acquisition: the AES key derived from the headset's
    serial number, the split of a ciphertext frame into two independent ECB
    blocks, the subscriber list, the aggregate device state each packet
    updates, and the start/stop guard flags of the reader. */
module EmotivDevice {
  import opened Wrappers
  import opened DataPacket
  import Lists

  type Key = k: string | |k| == 16 witness seq(16, _ => '0')

  /** One AES block. */
  type Block = b: seq<byte> | |b| == 16 witness seq(16, _ => 0)

  /** Position of serial character `sn[-1 - i]` in the key, `i` in 0..3; it
      is repeated eight positions further on. */
  function KeySlot(i: nat): nat {
    2 * i
  }

  /** `setup_aes_cipher`: the last four serial characters interleaved with
      fixed bytes; a serial shorter than four characters raises `IndexError`. */
  function SetupKey(sn: string): (r: Result<Key>)
    ensures r.Success? <==> |sn| >= 4
    ensures r.Failure? ==> r.error == IndexError
    ensures r.Success? ==> forall i | 0 <= i < 4 ::
      r.value[KeySlot(i)] == sn[|sn| - 1 - i] && r.value[KeySlot(i) + 8] == sn[|sn| - 1 - i]
    ensures r.Success? ==>
      && r.value[1] == '\0' && r.value[3] == 'T' && r.value[5] == '\U{10}' && r.value[7] == 'B'
      && r.value[9] == '\0' && r.value[11] == 'H' && r.value[13] == '\0' && r.value[15] == 'P'
  {
    if |sn| < 4 then Failure(IndexError)
    else
      var a, b, c, d := sn[|sn| - 1], sn[|sn| - 2], sn[|sn| - 3], sn[|sn| - 4];
      Success([a, '\0', b, 'T', c, '\U{10}', d, 'B', a, '\0', b, 'H', c, '\0', d, 'P'])
  }

  /** Two serials give the same key exactly when their last four characters agree. */
  lemma KeyDependsOnlyOnLastFour(sn1: string, sn2: string)
    requires |sn1| >= 4 && |sn2| >= 4
    ensures SetupKey(sn1) == SetupKey(sn2) <==> sn1[|sn1| - 4..] == sn2[|sn2| - 4..]
  {
    var t1, t2 := sn1[|sn1| - 4..], sn2[|sn2| - 4..];
    if SetupKey(sn1) == SetupKey(sn2) {
      forall i | 0 <= i < 4 ensures t1[i] == t2[i] {
        assert t1[i] == SetupKey(sn1).value[KeySlot(3 - i)];
      }
    }
    if t1 == t2 {
      assert sn1[|sn1| - 1] == t1[3] == sn2[|sn2| - 1];
      assert sn1[|sn1| - 2] == t1[2] == sn2[|sn2| - 2];
      assert sn1[|sn1| - 3] == t1[1] == sn2[|sn2| - 3];
      assert sn1[|sn1| - 4] == t1[0] == sn2[|sn2| - 4];
    }
  }

  /** The key of the research headset the application opens. */
  lemma KeyOfApplicationSerial()
    ensures SetupKey("SN20120229000254") == Success(
      ['4', '\0', '5', 'T', '2', '\U{10}', '0', 'B', '4', '\0', '5', 'H', '2', '\0', '0', 'P'])
  {
  }

  /** The block cipher's decryption under a key; AES itself is not modelled. */
  type Decryptor = (Key, Block) -> Block

  /** Decrypts a 32-byte ciphertext frame as two independent ECB blocks. */
  function DecryptFrame(decrypt: Decryptor, key: Key, enc: Frame): (raw: Frame)
    ensures raw[..16] == decrypt(key, enc[..16])
    ensures raw[16..] == decrypt(key, enc[16..])
  {
    var raw := decrypt(key, enc[..16]) + decrypt(key, enc[16..]);
    assert raw[..16] == decrypt(key, enc[..16]) && raw[16..] == decrypt(key, enc[16..]);
    raw
  }

  /** Electronic-codebook mode (section 6.1 of NIST SP 800-38A): each
      plaintext half depends on its own ciphertext half only. */
  lemma DecryptHalvesIndependent(decrypt: Decryptor, key: Key, a: Frame, b: Frame)
    ensures a[..16] == b[..16] ==>
      DecryptFrame(decrypt, key, a)[..16] == DecryptFrame(decrypt, key, b)[..16]
    ensures a[16..] == b[16..] ==>
      DecryptFrame(decrypt, key, a)[16..] == DecryptFrame(decrypt, key, b)[16..]
  {
  }

  /** Identity of a registered callback; the callbacks themselves are opaque. */
  type Subscriber = nat

  /** What one frame makes the reader do, in order. */
  datatype Effect = Enqueued(packet: Packet) | Delivered(subscriber: Subscriber, packet: Packet)

  /** `EmotivDevice`: the state the reader thread writes. */
  datatype Device = Device(
    key: Key,
    gyroX: Option<byte>,
    gyroY: Option<byte>,
    battery: Option<real>,
    cq: map<string, nat>,
    queue: seq<Packet>,
    subscribers: seq<Subscriber>,
    stopRequested: bool,
    running: bool,
    readers: nat,          // reader threads started since the handle was last dropped
    packetSpeed: real)

  /** `clear_state`: forget every reading, drain the queue, drop every
      subscriber and reset the reader flags. */
  function ClearState(d: Device): (d': Device)
    ensures d'.key == d.key
    ensures d'.gyroX == None && d'.gyroY == None && d'.battery == None
    ensures d'.cq.Keys == SensorIdToNdx.Keys
    ensures forall name | name in d'.cq :: d'.cq[name] == 0
    ensures d'.queue == [] && d'.subscribers == []
    ensures !d'.stopRequested && !d'.running && d'.readers == 0
    ensures d'.packetSpeed == 0.0
  {
    SensorTablesAgree();
    var cq := map i | 0 <= i < ChannelCount :: CounterToSensorId[i] := 0;
    assert cq.Keys == SensorIdToNdx.Keys by {
      forall name | name in SensorIdToNdx ensures name in cq {
        assert name == CounterToSensorId[SensorIdToNdx[name]];
      }
    }
    Device(d.key, None, None, None, cq, [], [], false, false, 0, 0.0)
  }

  /** `EmotivDevice(serial_num)`: derive the key, then clear the state. */
  function NewDevice(sn: string): (r: Result<Device>)
    ensures r.Success? <==> |sn| >= 4
    ensures r.Success? ==> Success(r.value.key) == SetupKey(sn)
    ensures r.Success? ==>
      && r.value.gyroX == None && r.value.gyroY == None && r.value.battery == None
      && r.value.cq.Keys == SensorIdToNdx.Keys
      && (forall name | name in r.value.cq :: r.value.cq[name] == 0)
      && r.value.queue == [] && r.value.subscribers == []
      && !r.value.stopRequested && !r.value.running && r.value.readers == 0
      && r.value.packetSpeed == 0.0
  {
    var key :- SetupKey(sn);
    Success(ClearState(Device(key, None, None, None, map[], [], [], false, false, 0, 0.0)))
  }

  /** `subscribe`: append, duplicates allowed. */
  function Subscribe(subs: seq<Subscriber>, s: Subscriber): (r: seq<Subscriber>)
    ensures |r| == |subs| + 1 && r[..|subs|] == subs && r[|subs|] == s
  {
    subs + [s]
  }

  /** `unsubscribe`: removes the first registration of the callback and keeps
      the others in order; an unregistered callback raises `ValueError`. */
  function Unsubscribe(subs: seq<Subscriber>, s: Subscriber): (r: Result<seq<Subscriber>>)
    ensures r.Failure? <==> s !in subs
    ensures r.Failure? ==> r.error == ValueError
    ensures r.Success? ==>
      var i := Lists.IndexOf(subs, s);
      r.value == subs[..i] + subs[i + 1..]
    ensures r.Success? ==> multiset(r.value) == multiset(subs) - multiset{s}
  {
    if s !in subs then Failure(ValueError)
    else
      Lists.RemoveFirstSplits(subs, s);
      Lists.RemoveFirstContents(subs, s);
      Success(Lists.RemoveFirst(subs, s))
  }

  /** Unsubscribing right after subscribing a callback not yet registered
      restores the list. */
  lemma UnsubscribeUndoesSubscribe(subs: seq<Subscriber>, s: Subscriber)
    requires s !in subs
    ensures Unsubscribe(Subscribe(subs, s), s) == Success(subs)
  {
    var r := Subscribe(subs, s);
    var i := Lists.IndexOf(r, s);
    assert i == |subs|;
    assert r[..i] == subs;
    assert r[i + 1..] == [];
    assert r[..i] + r[i + 1..] == subs;
  }

  /** The device-state part of handling one packet: gyro is always
      overwritten, the battery only by a truthy reading (absent and `0.0`
      keep the previous value), the contact quality only at the packet's
      sensor. */
  function UpdateState(d: Device, p: Packet): (d': Device)
    ensures d'.gyroX == Some(p.gyroX) && d'.gyroY == Some(p.gyroY)
    ensures p.battery.Some? && p.battery.value != 0.0 ==> d'.battery == p.battery
    ensures p.battery.None? || p.battery.value == 0.0 ==> d'.battery == d.battery
    ensures p.cq.None? ==> d'.cq == d.cq
    ensures p.cq.Some? ==>
      && d'.cq.Keys == d.cq.Keys + {p.cq.value.id}
      && d'.cq[p.cq.value.id] == p.cq.value.val
      && (forall name | name in d.cq && name != p.cq.value.id :: d'.cq[name] == d.cq[name])
    ensures d'.(gyroX := d.gyroX, gyroY := d.gyroY, battery := d.battery, cq := d.cq) == d
  {
    var battery := if p.battery.Some? && p.battery.value != 0.0 then p.battery else d.battery;
    var cq := if p.cq.Some? then d.cq[p.cq.value.id := p.cq.value.val] else d.cq;
    d.(gyroX := Some(p.gyroX), gyroY := Some(p.gyroY), battery := battery, cq := cq)
  }

  /** A battery frame whose counter byte is 128..225 reads `0.0`, which the
      device ignores: the last known battery value stays. */
  lemma EmptyBatteryReadingIgnored(d: Device, frame: Frame)
    requires 127 < frame[0] <= 225
    ensures Decode(frame).battery == Some(0.0)
    ensures UpdateState(d, Decode(frame)).battery == d.battery
  {
    BatteryCorners(frame[0]);
  }

  /** One iteration of the reader loop: decrypt, decode, queue the packet,
      call every subscriber in registration order, update the state. */
  function HandleFrame(d: Device, decrypt: Decryptor, enc: Frame): (r: (Device, seq<Effect>))
    ensures var p := Decode(DecryptFrame(decrypt, d.key, enc));
      && r.0.queue == d.queue + [p]
      && |r.1| == 1 + |d.subscribers|
      && r.1[0] == Enqueued(p)
      && (forall i | 0 <= i < |d.subscribers| :: r.1[i + 1] == Delivered(d.subscribers[i], p))
      && r.0 == UpdateState(d.(queue := d.queue + [p]), p)
  {
    var p := Decode(DecryptFrame(decrypt, d.key, enc));
    var notified := seq(|d.subscribers|, i requires 0 <= i < |d.subscribers| => Delivered(d.subscribers[i], p));
    (UpdateState(d.(queue := d.queue + [p]), p), [Enqueued(p)] + notified)
  }

  /** The reader loop over the frames it manages to read. */
  function ReadFrames(d: Device, decrypt: Decryptor, frames: seq<Frame>): (r: (Device, seq<Effect>))
    ensures r.0.key == d.key && r.0.subscribers == d.subscribers
    ensures r.0.running == d.running && r.0.stopRequested == d.stopRequested
    decreases |frames|
  {
    if frames == [] then (d, [])
    else
      var step := HandleFrame(d, decrypt, frames[0]);
      var rest := ReadFrames(step.0, decrypt, frames[1..]);
      (rest.0, step.1 + rest.1)
  }

  /** The packets a run of frames produces. */
  function DecodeAll(decrypt: Decryptor, key: Key, frames: seq<Frame>): (ps: seq<Packet>)
    ensures |ps| == |frames|
    ensures forall i | 0 <= i < |frames| :: ps[i] == Decode(DecryptFrame(decrypt, key, frames[i]))
  {
    seq(|frames|, i requires 0 <= i < |frames| => Decode(DecryptFrame(decrypt, key, frames[i])))
  }

  /** The reader queues one packet per frame, in frame order. */
  lemma {:induction false} ReadFramesQueue(d: Device, decrypt: Decryptor, frames: seq<Frame>)
    ensures ReadFrames(d, decrypt, frames).0.queue == d.queue + DecodeAll(decrypt, d.key, frames)
    decreases |frames|
  {
    if frames != [] {
      var step := HandleFrame(d, decrypt, frames[0]);
      ReadFramesQueue(step.0, decrypt, frames[1..]);
      var all := DecodeAll(decrypt, d.key, frames);
      assert all == [all[0]] + DecodeAll(decrypt, d.key, frames[1..]);
    }
  }

  /** What one packet makes the reader do: queue it, then hand it to every
      subscriber in registration order. */
  function PacketEffects(p: Packet, subs: seq<Subscriber>): (es: seq<Effect>)
    ensures |es| == 1 + |subs|
  {
    [Enqueued(p)] + seq(|subs|, j requires 0 <= j < |subs| => Delivered(subs[j], p))
  }

  /** The effects of a run of packets, packet by packet. */
  function EffectsOf(ps: seq<Packet>, subs: seq<Subscriber>): (es: seq<Effect>)
    decreases |ps|
  {
    if ps == [] then [] else PacketEffects(ps[0], subs) + EffectsOf(ps[1..], subs)
  }

  /** The reader's effects are, frame by frame, the queueing of that frame's
      packet followed by its delivery to each subscriber in order; so each
      frame makes `1 + |subscribers|` calls. */
  lemma {:induction false} ReadFramesEffects(d: Device, decrypt: Decryptor, frames: seq<Frame>)
    ensures ReadFrames(d, decrypt, frames).1 == EffectsOf(DecodeAll(decrypt, d.key, frames), d.subscribers)
    ensures |ReadFrames(d, decrypt, frames).1| == |frames| * (1 + |d.subscribers|)
  {
    ReadFramesEffectsInOrder(d, decrypt, frames);
    EffectsOfLength(DecodeAll(decrypt, d.key, frames), d.subscribers);
  }

  lemma {:induction false} ReadFramesEffectsInOrder(d: Device, decrypt: Decryptor, frames: seq<Frame>)
    ensures ReadFrames(d, decrypt, frames).1 == EffectsOf(DecodeAll(decrypt, d.key, frames), d.subscribers)
    decreases |frames|
  {
    if frames != [] {
      var step := HandleFrame(d, decrypt, frames[0]);
      HandleFrameEffects(d, decrypt, frames[0]);
      ReadFramesEffectsInOrder(step.0, decrypt, frames[1..]);
      var all := DecodeAll(decrypt, d.key, frames);
      assert all[1..] == DecodeAll(decrypt, d.key, frames[1..]);
    }
  }

  /** Each packet contributes `1 + |subs|` effects. */
  lemma {:induction false} EffectsOfLength(ps: seq<Packet>, subs: seq<Subscriber>)
    ensures |EffectsOf(ps, subs)| == |ps| * (1 + |subs|)
    decreases |ps|
  {
    if ps != [] {
      EffectsOfLength(ps[1..], subs);
      assert |ps| * (1 + |subs|) == (1 + |subs|) + (|ps| - 1) * (1 + |subs|);
    }
  }

  lemma HandleFrameEffects(d: Device, decrypt: Decryptor, enc: Frame)
    ensures HandleFrame(d, decrypt, enc).1 == PacketEffects(Decode(DecryptFrame(decrypt, d.key, enc)), d.subscribers)
    ensures HandleFrame(d, decrypt, enc).0.key == d.key
    ensures HandleFrame(d, decrypt, enc).0.subscribers == d.subscribers
  {
    var p := Decode(DecryptFrame(decrypt, d.key, enc));
    var es, want := HandleFrame(d, decrypt, enc).1, PacketEffects(p, d.subscribers);
    forall k | 0 <= k < |es| ensures es[k] == want[k] {
      if k > 0 {
        assert es[k] == Delivered(d.subscribers[k - 1], p);
      }
    }
  }

  /** `start_reader`: a no-op while running, otherwise one more reader thread
      is started. The guard reads `running`, which only the reader thread
      itself raises once the device is open. */
  function StartReader(d: Device): (d': Device)
    ensures d.running ==> d' == d
    ensures !d.running ==> d'.readers == d.readers + 1 && d'.(readers := d.readers) == d
    ensures !d'.running <==> !d.running
  {
    if d.running then d else d.(readers := d.readers + 1)
  }

  /** The reader thread's life: opening the device decides whether it runs;
      after the frames it reads it always resets both flags on exit. */
  function RunReader(d: Device, decrypt: Decryptor, deviceOpened: bool, frames: seq<Frame>): (r: (Device, seq<Effect>))
    ensures !r.0.running && !r.0.stopRequested
    ensures !deviceOpened ==> r.1 == [] && r.0.queue == d.queue
    ensures r.0.subscribers == d.subscribers
  {
    if !deviceOpened then (d.(running := false, stopRequested := false), [])
    else
      var (d1, effects) := ReadFrames(d.(running := true), decrypt, frames);
      (d1.(running := false, stopRequested := false), effects)
  }

  /** `stop_reader`: a no-op while not running; otherwise request the stop,
      wait for the newest reader (the only one the device holds) to reset
      its flags, and drop the handle. */
  function StopReader(d: Device): (d': Device)
    ensures !d.running ==> d' == d
    ensures !d'.running
    ensures d.running ==> !d'.stopRequested && d'.readers == 0
    ensures d'.queue == d.queue && d'.subscribers == d.subscribers
    ensures d'.(running := d.running, stopRequested := d.stopRequested, readers := d.readers) == d
  {
    if !d.running then d
    else
      var requested := d.(stopRequested := true);
      requested.(running := false, stopRequested := false, readers := 0)
  }

  /** The start guard does not stop a second reader: two calls before the
      first reader has opened the device start two threads, and only a
      running reader makes further calls no-ops. */
  lemma StartReaderTwice(d: Device)
    ensures !d.running ==> StartReader(StartReader(d)).readers == d.readers + 2
    ensures d.running ==> StartReader(StartReader(d)) == d
  {
  }

  /** What `contact_resistance` reports for a raw contact-quality value. */
  datatype ContactReading =
    | NoContact              // `(None, "No contact")`
    | Excellent              // `(4, "Excellent")`
    | Polynomial(cq: nat)    // the fitted 4th-order polynomial of `cq`

  function Resistance(r: ContactReading): Option<real>
    requires !r.Polynomial?
  {
    if r.NoContact? then None else Some(4.0)
  }

  function Label(r: ContactReading): string
    requires !r.Polynomial?
  {
    if r.NoContact? then "No contact" else "Excellent"
  }

  /** `contact_resistance(contact)`: below 260 there is no contact, above 1026
      the contact is excellent, and 260..1026 (bounds included) go to the
      polynomial; an unknown sensor raises `KeyError`. */
  function ContactResistance(d: Device, contact: string): (r: Result<ContactReading>)
    ensures r.Failure? <==> contact !in d.cq
    ensures r.Failure? ==> r.error == KeyError
    ensures r.Success? ==> (r.value == NoContact <==> d.cq[contact] < 260)
    ensures r.Success? ==> (r.value == Excellent <==> d.cq[contact] > 1026)
    ensures r.Success? ==> (r.value.Polynomial? <==> 260 <= d.cq[contact] <= 1026)
    ensures r.Success? && r.value.Polynomial? ==> r.value.cq == d.cq[contact]
  {
    if contact !in d.cq then Failure(KeyError)
    else
      var cq := d.cq[contact];
      if cq < 260 then Success(NoContact)
      else if cq > 1026 then Success(Excellent)
      else Success(Polynomial(cq))
  }

  /** After `clear_state` every sensor reads "No contact". */
  lemma ClearedContactsReadNoContact(d: Device, contact: string)
    requires IsSensorId(contact)
    ensures ContactResistance(ClearState(d), contact) == Success(NoContact)
    ensures Resistance(NoContact) == None && Label(NoContact) == "No contact"
  {
  }
}

=== FILE: lists.dfy ===
/** The Python list operations the modelled code relies on: `list.remove`
    (drop the first equal element) and `bisect.insort` (insert after every
    element not greater than the new one, found by binary search). */
module Lists {

  /** Index of the first occurrence of `x`. */
  function IndexOf<T(==)>(s: seq<T>, x: T): (i: nat)
    requires x in s
    ensures i < |s| && s[i] == x && x !in s[..i]
  {
    if s[0] == x then 0
    else
      var i := 1 + IndexOf(s[1..], x);
      assert s[..i] == [s[0]] + s[1..][..i - 1];
      i
  }

  /** `list.remove(x)` on a list that holds `x`. */
  function RemoveFirst<T(==)>(s: seq<T>, x: T): (r: seq<T>)
    requires x in s
    ensures |r| == |s| - 1
    ensures forall k | 0 <= k < IndexOf(s, x) :: r[k] == s[k]
  {
    if s[0] == x then s[1..] else [s[0]] + RemoveFirst(s[1..], x)
  }

  /** `remove` cuts out exactly the first occurrence. */
  lemma {:induction false} RemoveFirstSplits<T>(s: seq<T>, x: T)
    requires x in s
    ensures var i := IndexOf(s, x);
      RemoveFirst(s, x) == s[..i] + s[i + 1..]
  {
    if s[0] == x {
      assert IndexOf(s, x) == 0;
      assert s[..0] + s[1..] == s[1..] == RemoveFirst(s, x);
    } else {
      var tail := s[1..];
      var j := IndexOf(tail, x);
      RemoveFirstSplits(tail, x);
      assert IndexOf(s, x) == j + 1;
      assert RemoveFirst(s, x) == [s[0]] + RemoveFirst(tail, x);
      assert s == [s[0]] + tail;
      ConsCut(s[0], tail, j);
    }
  }

  /** Cutting element `j` out of a tail and consing the head back cuts
      element `j + 1` out of the whole list. */
  lemma ConsCut<T>(h: T, tail: seq<T>, j: nat)
    requires j < |tail|
    ensures [h] + (tail[..j] + tail[j + 1..]) == ([h] + tail)[..j + 1] + ([h] + tail)[j + 2..]
  {
    var s := [h] + tail;
    assert s[..j + 1] == [h] + tail[..j];
    assert s[j + 2..] == tail[j + 1..];
  }

  lemma RemoveAtMultiset<T>(s: seq<T>, i: nat)
    requires i < |s|
    ensures multiset(s[..i] + s[i + 1..]) == multiset(s) - multiset{s[i]}
  {
    assert s == s[..i] + [s[i]] + s[i + 1..];
  }

  /** Removing `x` from a list keeps every other element and its order, and
      takes out one copy of `x`. */
  lemma RemoveFirstContents<T>(s: seq<T>, x: T)
    requires x in s
    ensures multiset(RemoveFirst(s, x)) == multiset(s) - multiset{x}
    ensures forall y | y != x :: y in RemoveFirst(s, x) <==> y in s
  {
    var i := IndexOf(s, x);
    RemoveFirstSplits(s, x);
    RemoveAtMultiset(s, i);
    forall y | y != x
      ensures y in RemoveFirst(s, x) <==> y in s
    {
      assert y in s <==> y in multiset(s);
      assert y in RemoveFirst(s, x) <==> y in multiset(RemoveFirst(s, x));
    }
  }

  /** `less` is a strict weak order: irreflexive, transitive, and its
      incomparability is transitive too. */
  ghost predicate StrictWeakOrder<T(!new)>(less: (T, T) -> bool) {
    && (forall a :: !less(a, a))
    && (forall a, b, c :: less(a, b) && less(b, c) ==> less(a, c))
    && (forall a, b, c :: !less(a, b) && !less(b, c) ==> !less(a, c))
  }

  /** Non-decreasing: no later element is below an earlier one. */
  ghost predicate SortedBy<T>(less: (T, T) -> bool, s: seq<T>) {
    forall i, j | 0 <= i < j < |s| :: !less(s[j], s[i])
  }

  /** `bisect_right` restricted to `[lo, hi)`, the loop of the library. */
  function BisectRight<T>(a: seq<T>, x: T, less: (T, T) -> bool, lo: nat, hi: nat): (r: nat)
    requires lo <= hi <= |a|
    ensures lo <= r <= hi
    decreases hi - lo
  {
    if lo < hi then
      var mid := (lo + hi) / 2;
      if less(x, a[mid]) then BisectRight(a, x, less, lo, mid)
      else BisectRight(a, x, less, mid + 1, hi)
    else lo
  }

  /** On a sorted list the binary search finds the split point: everything
      before it is not above `x`, everything from it on is above `x`. */
  lemma {:induction false} BisectRightSplits<T(!new)>(a: seq<T>, x: T, less: (T, T) -> bool, lo: nat, hi: nat)
    requires StrictWeakOrder(less) && SortedBy(less, a)
    requires lo <= hi <= |a|
    requires forall i | 0 <= i < lo :: !less(x, a[i])
    requires forall i | hi <= i < |a| :: less(x, a[i])
    ensures var r := BisectRight(a, x, less, lo, hi);
      && (forall i | 0 <= i < r :: !less(x, a[i]))
      && (forall i | r <= i < |a| :: less(x, a[i]))
    decreases hi - lo
  {
    if lo < hi {
      var mid := (lo + hi) / 2;
      if less(x, a[mid]) {
        forall i | mid <= i < |a| ensures less(x, a[i]) {
          if i > mid {
            assert !less(a[i], a[mid]);
          }
        }
        BisectRightSplits(a, x, less, lo, mid);
      } else {
        forall i | 0 <= i < mid + 1 ensures !less(x, a[i]) {
          if i < mid {
            assert !less(a[mid], a[i]);
          }
        }
        BisectRightSplits(a, x, less, mid + 1, hi);
      }
    }
  }

  /** `bisect.insort(a, x)`. */
  function Insort<T>(a: seq<T>, x: T, less: (T, T) -> bool): (r: seq<T>)
    ensures |r| == |a| + 1
    ensures var p := BisectRight(a, x, less, 0, |a|);
      r[p] == x && r[..p] == a[..p] && r[p + 1..] == a[p..] && r[..p] + r[p + 1..] == a
    ensures multiset(r) == multiset(a) + multiset{x}
  {
    var p := BisectRight(a, x, less, 0, |a|);
    assert a == a[..p] + a[p..];
    a[..p] + [x] + a[p..]
  }

  /** Inserting `x` at a split point of a sorted list keeps it sorted. */
  lemma InsertAtSplitSorted<T(!new)>(a: seq<T>, x: T, less: (T, T) -> bool, p: nat)
    requires StrictWeakOrder(less) && SortedBy(less, a)
    requires p <= |a|
    requires forall i | 0 <= i < p :: !less(x, a[i])
    requires forall i | p <= i < |a| :: less(x, a[i])
    ensures SortedBy(less, a[..p] + [x] + a[p..])
  {
    var r := a[..p] + [x] + a[p..];
    assert forall k | 0 <= k < p :: r[k] == a[k];
    assert r[p] == x;
    assert forall k | p < k < |r| :: r[k] == a[k - 1];
    forall i, j | 0 <= i < j < |r|
      ensures !less(r[j], r[i])
    {
      if j < p {
        assert !less(a[j], a[i]);
      } else if j == p {
        assert !less(x, a[i]);
      } else if i == p {
        assert less(x, a[j - 1]);
      } else if i < p {
        assert !less(a[j - 1], a[i]);
      } else {
        assert !less(a[j - 1], a[i - 1]);
      }
    }
  }

  /** Inserting into a sorted list keeps it sorted, and the other elements
      keep their relative order. */
  lemma {:induction false} InsortSorted<T(!new)>(a: seq<T>, x: T, less: (T, T) -> bool)
    requires StrictWeakOrder(less) && SortedBy(less, a)
    ensures SortedBy(less, Insort(a, x, less))
    ensures var p := BisectRight(a, x, less, 0, |a|);
      Insort(a, x, less)[..p] + Insort(a, x, less)[p + 1..] == a
  {
    var p := BisectRight(a, x, less, 0, |a|);
    BisectRightSplits(a, x, less, 0, |a|);
    InsertAtSplitSorted(a, x, less, p);
  }

  /** Strictly increasing under `less`: sorted and without equivalent
      neighbours, hence without duplicates. */
  ghost predicate StrictlySortedBy<T>(less: (T, T) -> bool, s: seq<T>) {
    forall i, j | 0 <= i < j < |s| :: less(s[i], s[j])
  }

  /** Dropping one element keeps a sorted list sorted. */
  lemma RemoveAtSorted<T>(less: (T, T) -> bool, s: seq<T>, i: nat)
    requires i < |s|
    requires SortedBy(less, s)
    ensures SortedBy(less, s[..i] + s[i + 1..])
    ensures StrictlySortedBy(less, s) ==> StrictlySortedBy(less, s[..i] + s[i + 1..])
  {
    var r := s[..i] + s[i + 1..];
    assert forall k | 0 <= k < |r| :: r[k] == if k < i then s[k] else s[k + 1];
  }

  /** `remove` on a sorted list keeps it sorted. */
  lemma RemoveFirstSorted<T>(less: (T, T) -> bool, s: seq<T>, x: T)
    requires x in s && SortedBy(less, s)
    ensures SortedBy(less, RemoveFirst(s, x))
    ensures StrictlySortedBy(less, s) ==> StrictlySortedBy(less, RemoveFirst(s, x))
  {
    RemoveFirstSplits(s, x);
    RemoveAtSorted(less, s, IndexOf(s, x));
  }

  /** Removing a freshly inserted element restores the list. */
  lemma RemoveFirstUndoesInsort<T>(a: seq<T>, x: T, less: (T, T) -> bool)
    requires x !in a
    ensures x in Insort(a, x, less)
    ensures RemoveFirst(Insort(a, x, less), x) == a
  {
    var r := Insort(a, x, less);
    var p := BisectRight(a, x, less, 0, |a|);
    assert x !in r[..p] by {
      assert r[..p] == a[..p];
    }
    assert r[p] == x;
    assert IndexOf(r, x) == p;
    RemoveFirstSplits(r, x);
    assert r[..p] + r[p + 1..] == a[..p] + a[p..] == a;
  }

  /** `p` splits `a` into a part not above `x` and a part above it. */
  ghost predicate IsSplit<T>(a: seq<T>, x: T, less: (T, T) -> bool, p: nat) {
    && p <= |a|
    && (forall k | 0 <= k < p :: !less(x, a[k]))
    && (forall k | p <= k < |a| :: less(x, a[k]))
  }

  lemma SplitUnique<T>(a: seq<T>, x: T, less: (T, T) -> bool, p: nat, q: nat)
    requires IsSplit(a, x, less, p) && IsSplit(a, x, less, q)
    ensures p == q
  {
    if p < |a| {
      assert less(x, a[p]);
    }
    if q < |a| {
      assert less(x, a[q]);
    }
  }

  /** On a strictly sorted list, inserting back an element just removed
      restores the list: the search finds the slot it came from. */
  lemma InsortUndoesRemoveAt<T(!new)>(s: seq<T>, i: nat, less: (T, T) -> bool)
    requires StrictWeakOrder(less) && StrictlySortedBy(less, s)
    requires i < |s|
    ensures var a := s[..i] + s[i + 1..];
      Insort(a, s[i], less) == s
  {
    var x := s[i];
    var a := s[..i] + s[i + 1..];
    RemoveAtSorted(less, s, i);
    assert IsSplit(a, x, less, i) by {
      forall k | 0 <= k < i ensures !less(x, a[k]) {
        assert a[k] == s[k] && less(s[k], x);
      }
      forall k | i <= k < |a| ensures less(x, a[k]) {
        assert a[k] == s[k + 1];
      }
    }
    var p := BisectRight(a, x, less, 0, |a|);
    BisectRightSplits(a, x, less, 0, |a|);
    SplitUnique(a, x, less, p, i);
    assert a[..i] == s[..i] && a[i..] == s[i + 1..];
    assert s == s[..i] + [x] + s[i + 1..];
  }
}

=== FILE: signal_buffer.dfy ===
/** The rolling signal buffer: `2N` rows of `C` samples, a write cursor `end`
    and a window of `N` rows starting at `max(0, end - N)`. Rows past the
    middle are mirrored into the first half so that the window can be read as
    one contiguous slice. */
module SignalBuffer {
  import DataPacket

  type Row = seq<real>

  /** Value every cell holds before it is first written. */
  const FillValue: real := 8000.0

  function Fill(sigCnt: nat): (r: Row)
    ensures |r| == sigCnt && forall c | 0 <= c < sigCnt :: r[c] == FillValue
  {
    seq(sigCnt, _ => FillValue)
  }

  function Max(a: int, b: int): int {
    if a >= b then a else b
  }

  /** `SignalBuffer`: `rows` is the `2N x C` array, `bufLen` is `N`. */
  datatype Buffer = Buffer(rows: seq<Row>, bufLen: nat, sigCnt: nat, start: nat, end: nat)

  /** Shape of the array and the cursor range every reachable buffer keeps. */
  predicate Valid(s: Buffer) {
    && s.bufLen >= 1
    && |s.rows| == 2 * s.bufLen
    && (forall r | 0 <= r < |s.rows| :: |s.rows[r]| == s.sigCnt)
    && s.end <= 2 * s.bufLen - 1
    && s.start == Max(0, s.end - s.bufLen)
  }

  /** `SignalBuffer(buf_len, sig_cnt)`: every cell holds the fill value. A
      zero `buf_len` is excluded: the first pull would index an empty array. */
  function New(bufLen: nat, sigCnt: nat): (s: Buffer)
    requires bufLen >= 1
    ensures Valid(s) && s.start == 0 && s.end == 0
    ensures s.bufLen == bufLen && s.sigCnt == sigCnt
    ensures forall r | 0 <= r < |s.rows| :: s.rows[r] == Fill(sigCnt)
  {
    Buffer(seq(2 * bufLen, _ => Fill(sigCnt)), bufLen, sigCnt, 0, 0)
  }

  /** `buffer()`: the `N` rows of the window. */
  function Window(s: Buffer): (w: seq<Row>)
    requires Valid(s)
    ensures |w| == s.bufLen
    ensures s.start <= s.bufLen - 1
    ensures forall i | 0 <= i < s.bufLen :: w[i] == s.rows[s.start + i]
  {
    s.rows[s.start..s.start + s.bufLen]
  }

  /** The array and the local write cursor inside one `pull_packets` call. */
  datatype Store = Store(rows: seq<Row>, rend: nat)

  predicate StoreFits(st: Store, n: nat, sigCnt: nat) {
    && n >= 1
    && |st.rows| == 2 * n
    && (forall r | 0 <= r < |st.rows| :: |st.rows[r]| == sigCnt)
    && st.rend <= 2 * n - 1
  }

  /** One loop iteration of `pull_packets`: below the last physical row the
      row goes to `rend`, and also to `rend - N` once `rend > N`; at the last
      physical row the cursor is reset to `N - 1` and only that row is written. */
  function WriteRow(st: Store, n: nat, sigCnt: nat, row: Row): (st': Store)
    requires StoreFits(st, n, sigCnt) && |row| == sigCnt
    ensures StoreFits(st', n, sigCnt)
    ensures st.rend < 2 * n - 1 ==> st'.rend == st.rend + 1 && st'.rows[st.rend] == row
    ensures st.rend < 2 * n - 1 && st.rend > n ==> st'.rows[st.rend - n] == row
    ensures st.rend == 2 * n - 1 ==> st'.rend == n && st'.rows[n - 1] == row
    ensures forall j | 0 <= j < 2 * n ::
      (if st.rend < 2 * n - 1 then j != st.rend && (st.rend <= n || j != st.rend - n) else j != n - 1)
      ==> st'.rows[j] == st.rows[j]
  {
    if st.rend < 2 * n - 1 then
      var written := st.rows[st.rend := row];
      var mirrored := if st.rend > n then written[st.rend - n := row] else written;
      Store(mirrored, st.rend + 1)
    else
      Store(st.rows[n - 1 := row], n)
  }

  /** The drain loop of `pull_packets`, oldest queued row first. */
  function WriteAll(st: Store, n: nat, sigCnt: nat, q: seq<Row>): (st': Store)
    requires StoreFits(st, n, sigCnt)
    requires forall k | 0 <= k < |q| :: |q[k]| == sigCnt
    ensures StoreFits(st', n, sigCnt)
    decreases |q|
  {
    if q == [] then st else WriteAll(WriteRow(st, n, sigCnt, q[0]), n, sigCnt, q[1..])
  }

  predicate RowsFit(s: Buffer, q: seq<Row>) {
    forall k | 0 <= k < |q| :: |q[k]| == s.sigCnt
  }

  /** `pull_packets` on a queue of rows: drain, then store the cursor and
      derive the window start from it. */
  function Pull(s: Buffer, q: seq<Row>): (s': Buffer)
    requires Valid(s) && RowsFit(s, q)
    ensures Valid(s')
    ensures s'.bufLen == s.bufLen && s'.sigCnt == s.sigCnt
  {
    var st := WriteAll(Store(s.rows, s.end), s.bufLen, s.sigCnt, q);
    Buffer(st.rows, s.bufLen, s.sigCnt, Max(0, st.rend - s.bufLen), st.rend)
  }

  /** `clear()`: zero every cell; the cursor and the window start stay. */
  function Clear(s: Buffer): (s': Buffer)
    requires Valid(s)
    ensures Valid(s')
    ensures s'.start == s.start && s'.end == s.end && s'.bufLen == s.bufLen && s'.sigCnt == s.sigCnt
    ensures forall r, c | 0 <= r < |s'.rows| && 0 <= c < s.sigCnt :: s'.rows[r][c] == 0.0
  {
    s.(rows := seq(2 * s.bufLen, _ => seq(s.sigCnt, _ => 0.0)))
  }

  /** The rows a packet queue contributes: each packet's channel levels. */
  function EegRows(queue: seq<DataPacket.Packet>): (q: seq<Row>)
    ensures |q| == |queue|
    ensures forall k | 0 <= k < |q| :: |q[k]| == |queue[k].eeg|
  {
    seq(|queue|, k requires 0 <= k < |queue| =>
      seq(|queue[k].eeg|, c requires 0 <= c < |queue[k].eeg| => queue[k].eeg[c] as real))
  }

  /** `pull_packets(dev)`: drains the whole packet queue in arrival order with
      a local cursor, stores the cursor once at the end and returns the number
      of packets pulled. */
  method PullPackets(s: Buffer, queue: seq<DataPacket.Packet>) returns (s': Buffer, pulled: nat)
    requires Valid(s)
    requires forall k | 0 <= k < |queue| :: |queue[k].eeg| == s.sigCnt
    ensures Valid(s')
    ensures pulled == |queue|
    ensures s' == Pull(s, EegRows(queue))
  {
    var q := EegRows(queue);
    var n := s.bufLen;
    var rows := s.rows;
    var rend: nat := s.end;
    pulled := 0;
    while pulled < |queue|
      invariant pulled <= |queue|
      invariant StoreFits(Store(rows, rend), n, s.sigCnt)
      invariant WriteAll(Store(rows, rend), n, s.sigCnt, q[pulled..])
             == WriteAll(Store(s.rows, s.end), n, s.sigCnt, q)
    {
      ghost var before := Store(rows, rend);
      rows, rend := StoreRow(rows, rend, n, s.sigCnt, q[pulled]);
      WriteAllStep(before, n, s.sigCnt, q[pulled..]);
      assert q[pulled..][1..] == q[pulled + 1..];
      pulled := pulled + 1;
    }
    assert q[pulled..] == [];
    s' := Buffer(rows, n, s.sigCnt, Max(0, rend - n), rend);
  }

  /** The body of the drain loop, on the array and the local cursor. */
  method StoreRow(rows: seq<Row>, rend: nat, n: nat, sigCnt: nat, row: Row) returns (rows': seq<Row>, rend': nat)
    requires StoreFits(Store(rows, rend), n, sigCnt) && |row| == sigCnt
    ensures Store(rows', rend') == WriteRow(Store(rows, rend), n, sigCnt, row)
  {
    rows', rend' := rows, rend;
    if rend' < 2 * n - 1 {
      rows' := rows'[rend' := row];
      if rend' > n {
        rows' := rows'[rend' - n := row];
      }
      rend' := rend' + 1;
    } else {
      rend' := n - 1;
      rows' := rows'[rend' := row];
      rend' := rend' + 1;
    }
  }

  /** Draining a non-empty queue is one step followed by the rest. */
  lemma WriteAllStep(st: Store, n: nat, sigCnt: nat, q: seq<Row>)
    requires StoreFits(st, n, sigCnt) && q != []
    requires forall k | 0 <= k < |q| :: |q[k]| == sigCnt
    ensures WriteAll(st, n, sigCnt, q) == WriteAll(WriteRow(st, n, sigCnt, q[0]), n, sigCnt, q[1..])
  {
  }

  /** Draining `a + b` in one loop equals draining `a` and then `b`. */
  lemma {:induction false} WriteAllAppend(st: Store, n: nat, sigCnt: nat, a: seq<Row>, b: seq<Row>)
    requires StoreFits(st, n, sigCnt)
    requires forall k | 0 <= k < |a| :: |a[k]| == sigCnt
    requires forall k | 0 <= k < |b| :: |b[k]| == sigCnt
    ensures WriteAll(st, n, sigCnt, a + b)
         == WriteAll(WriteAll(st, n, sigCnt, a), n, sigCnt, b)
    decreases |a|
  {
    if a != [] {
      assert (a + b)[1..] == a[1..] + b;
      WriteAllAppend(WriteRow(st, n, sigCnt, a[0]), n, sigCnt, a[1..], b);
    } else {
      assert a + b == b;
    }
  }

  /** One pull of `a + b` leaves the same buffer as a pull of `a` followed by
      a pull of `b`: the cursor is local and the start is derived at the end. */
  lemma PullAppend(s: Buffer, a: seq<Row>, b: seq<Row>)
    requires Valid(s) && RowsFit(s, a) && RowsFit(s, b)
    ensures RowsFit(s, a + b)
    ensures Pull(s, a + b) == Pull(Pull(s, a), b)
  {
    WriteAllAppend(Store(s.rows, s.end), s.bufLen, s.sigCnt, a, b);
  }

  /** Pulling one row at a time, `|q|` times. */
  function PullEach(s: Buffer, q: seq<Row>): (s': Buffer)
    requires Valid(s) && RowsFit(s, q)
    ensures Valid(s') && s'.bufLen == s.bufLen && s'.sigCnt == s.sigCnt
    decreases |q|
  {
    if q == [] then s else PullEach(Pull(s, [q[0]]), q[1..])
  }

  /** A pull of `k` rows equals `k` pulls of one row each. */
  lemma {:induction false} PullIsPullEach(s: Buffer, q: seq<Row>)
    requires Valid(s) && RowsFit(s, q)
    ensures Pull(s, q) == PullEach(s, q)
    decreases |q|
  {
    if q == [] {
      assert s.start == Max(0, s.end - s.bufLen);
    } else {
      assert q == [q[0]] + q[1..];
      PullAppend(s, [q[0]], q[1..]);
      PullIsPullEach(Pull(s, [q[0]]), q[1..]);
    }
  }

  /** A pull of a single row is one step of the drain loop. */
  lemma PullSingle(s: Buffer, x: Row)
    requires Valid(s) && |x| == s.sigCnt
    ensures RowsFit(s, [x])
    ensures Pull(s, [x]).rows == WriteRow(Store(s.rows, s.end), s.bufLen, s.sigCnt, x).rows
    ensures Pull(s, [x]).end == WriteRow(Store(s.rows, s.end), s.bufLen, s.sigCnt, x).rend
  {
    var st := Store(s.rows, s.end);
    var st1 := WriteRow(st, s.bufLen, s.sigCnt, x);
    assert [x][1..] == [];
    assert WriteAll(st, s.bufLen, s.sigCnt, [x]) == WriteAll(st1, s.bufLen, s.sigCnt, []) == st1;
  }

  /** No pull ever writes the last physical row `2N - 1`. */
  lemma {:induction false} LastRowNeverWritten(s: Buffer, q: seq<Row>)
    requires Valid(s) && RowsFit(s, q)
    ensures Pull(s, q).rows[2 * s.bufLen - 1] == s.rows[2 * s.bufLen - 1]
    decreases |q|
  {
    if q != [] {
      assert q == [q[0]] + q[1..];
      PullAppend(s, [q[0]], q[1..]);
      PullSingle(s, q[0]);
      LastRowNeverWritten(Pull(s, [q[0]]), q[1..]);
    }
  }

  /* What the array holds after the rows `hist` were pulled into a fresh
     buffer, with no `clear` in between; `e` is the cursor, `h` is `|hist|`. */

  /** First pass (`h == e`): the rows from `e` up still hold the fill value. */
  ghost predicate FreshAbove(rows: seq<Row>, e: nat, n: nat, sigCnt: nat)
    requires |rows| == 2 * n
  {
    forall j | e <= j < 2 * n :: rows[j] == Fill(sigCnt)
  }

  /** First pass: the unmirrored rows below `e` hold the pulled rows in order. */
  ghost predicate FirstRows(rows: seq<Row>, e: nat, n: nat, hist: seq<Row>)
    requires |rows| == 2 * n && e < 2 * n && e <= |hist|
  {
    forall j | Max(0, e - n) <= j < e :: rows[j] == hist[j]
  }

  /** Once `e >= N`, rows `e-N+1 .. e-1` hold the last `N - 1` rows pulled. */
  ghost predicate TailRows(rows: seq<Row>, e: nat, n: nat, hist: seq<Row>)
    requires |rows| == 2 * n && e < 2 * n && e <= |hist|
  {
    e >= n ==> forall j | e - n < j < e :: rows[j] == hist[|hist| - e + j]
  }

  /** Once `e > N`, row `e - N` holds the `N`-th most recent row. */
  ghost predicate HeadRow(rows: seq<Row>, e: nat, n: nat, hist: seq<Row>)
    requires |rows| == 2 * n && e < 2 * n && e <= |hist|
  {
    e > n ==> rows[e - n] == hist[|hist| - n]
  }

  /** Rows `k` and `k - N` agree for `N < k < e`. */
  ghost predicate Mirrored(rows: seq<Row>, e: nat, n: nat)
    requires |rows| == 2 * n && e < 2 * n
  {
    forall k | n < k < e :: rows[k - n] == rows[k]
  }

  /** For `N >= 2`, row 0 holds the first row ever pulled. */
  ghost predicate RowZero(rows: seq<Row>, n: nat, hist: seq<Row>)
    requires |rows| == 2 * n
  {
    n >= 2 && |hist| >= 1 ==> rows[0] == hist[0]
  }

  /** The cursor equals the history length on the first pass; afterwards the
      history is at least `2N` long and the cursor at least `N`. */
  ghost predicate Shape(st: Store, n: nat, sigCnt: nat, hist: seq<Row>) {
    && StoreFits(st, n, sigCnt)
    && (forall k | 0 <= k < |hist| :: |hist[k]| == sigCnt)
    && (|hist| == st.rend || (|hist| >= 2 * n && st.rend >= n))
  }

  ghost predicate StoreInv(st: Store, n: nat, sigCnt: nat, hist: seq<Row>) {
    && Shape(st, n, sigCnt, hist)
    && (|hist| == st.rend ==> FreshAbove(st.rows, st.rend, n, sigCnt))
    && (|hist| == st.rend ==> FirstRows(st.rows, st.rend, n, hist))
    && TailRows(st.rows, st.rend, n, hist)
    && HeadRow(st.rows, st.rend, n, hist)
    && Mirrored(st.rows, st.rend, n)
    && RowZero(st.rows, n, hist)
  }

  ghost predicate Inv(s: Buffer, hist: seq<Row>) {
    Valid(s) && StoreInv(Store(s.rows, s.end), s.bufLen, s.sigCnt, hist)
  }

  lemma InvNew(n: nat, sigCnt: nat)
    requires n >= 1
    ensures Inv(New(n, sigCnt), [])
  {
  }

  /** A step below the last physical row moves the window tail by one: the
      new row enters at `rend` and the rest comes from the old tail, or on
      the first pass from the rows written in order. */
  lemma AdvanceTail(st: Store, n: nat, sigCnt: nat, hist: seq<Row>, x: Row)
    requires Shape(st, n, sigCnt, hist) && |x| == sigCnt && st.rend < 2 * n - 1
    requires |hist| == st.rend ==> FirstRows(st.rows, st.rend, n, hist)
    requires TailRows(st.rows, st.rend, n, hist)
    ensures var st' := WriteRow(st, n, sigCnt, x);
      && |hist + [x]| >= st'.rend
      && TailRows(st'.rows, st'.rend, n, hist + [x])
  {
    var h, rend, rows := |hist|, st.rend, st.rows;
    var st' := WriteRow(st, n, sigCnt, x);
    var rows', e' := st'.rows, st'.rend;
    var hist' := hist + [x];
    assert e' == rend + 1 && rows'[rend] == x == hist'[h];
    if e' >= n {
      forall j | e' - n < j < e'
        ensures rows'[j] == hist'[h + 1 - e' + j]
      {
        if j == rend {
        } else if rend >= n {
          assert rows'[j] == rows[j] == hist[h - rend + j];
        } else {
          assert rows'[j] == rows[j] == hist[j];
        }
      }
    }
  }

  /** A step below the last physical row moves the window head by one. */
  lemma AdvanceHead(st: Store, n: nat, sigCnt: nat, hist: seq<Row>, x: Row)
    requires StoreFits(st, n, sigCnt) && |x| == sigCnt && st.rend < 2 * n - 1
    requires |hist| >= st.rend
    requires TailRows(st.rows, st.rend, n, hist)
    ensures var st' := WriteRow(st, n, sigCnt, x);
      && |hist + [x]| >= st'.rend
      && HeadRow(st'.rows, st'.rend, n, hist + [x])
  {
    var h, rend, rows := |hist|, st.rend, st.rows;
    var st' := WriteRow(st, n, sigCnt, x);
    var rows', e' := st'.rows, st'.rend;
    var hist' := hist + [x];
    if e' > n {
      var j := rend - n + 1;
      assert rend - n < j < rend && h >= rend;
      assert rows'[j] == rows[j];
      assert rows[j] == hist[h - rend + j];
      assert hist'[|hist'| - n] == hist[h - n + 1];
      assert rows'[e' - n] == hist'[|hist'| - n];
    }
    assert HeadRow(rows', e', n, hist');
  }

  /** A step below the last physical row keeps the mirror pairs. */
  lemma AdvanceMirror(st: Store, n: nat, sigCnt: nat, x: Row)
    requires StoreFits(st, n, sigCnt) && |x| == sigCnt && st.rend < 2 * n - 1
    requires Mirrored(st.rows, st.rend, n)
    ensures var st' := WriteRow(st, n, sigCnt, x);
      Mirrored(st'.rows, st'.rend, n)
  {
    var st' := WriteRow(st, n, sigCnt, x);
    forall k | n < k < st'.rend
      ensures st'.rows[k - n] == st'.rows[k]
    {
      if k < st.rend {
        assert st'.rows[k - n] == st.rows[k - n] == st.rows[k] == st'.rows[k];
      }
    }
  }

  /** A first-pass step writes the next row in order above the filled ones. */
  lemma AdvanceFirst(st: Store, n: nat, sigCnt: nat, hist: seq<Row>, x: Row)
    requires Shape(st, n, sigCnt, hist) && |x| == sigCnt && st.rend < 2 * n - 1
    requires |hist| == st.rend
    requires FreshAbove(st.rows, st.rend, n, sigCnt)
    requires FirstRows(st.rows, st.rend, n, hist)
    ensures var st' := WriteRow(st, n, sigCnt, x);
      && |hist + [x]| == st'.rend
      && FreshAbove(st'.rows, st'.rend, n, sigCnt)
      && FirstRows(st'.rows, st'.rend, n, hist + [x])
  {
    var st' := WriteRow(st, n, sigCnt, x);
    var hist' := hist + [x];
    forall j | Max(0, st'.rend - n) <= j < st'.rend
      ensures st'.rows[j] == hist'[j]
    {
      if j < st.rend {
        assert st'.rows[j] == st.rows[j] == hist[j];
      }
    }
    forall j | st'.rend <= j < 2 * n
      ensures st'.rows[j] == Fill(sigCnt)
    {
      assert st'.rows[j] == st.rows[j];
    }
  }

  /** A step below the last physical row keeps the invariant. */
  lemma StoreInvAdvance(st: Store, n: nat, sigCnt: nat, hist: seq<Row>, x: Row)
    requires StoreInv(st, n, sigCnt, hist) && |x| == sigCnt
    requires st.rend < 2 * n - 1
    ensures StoreInv(WriteRow(st, n, sigCnt, x), n, sigCnt, hist + [x])
  {
    var st' := WriteRow(st, n, sigCnt, x);
    AdvanceTail(st, n, sigCnt, hist, x);
    AdvanceHead(st, n, sigCnt, hist, x);
    AdvanceMirror(st, n, sigCnt, x);
    if |hist| == st.rend {
      AdvanceFirst(st, n, sigCnt, hist, x);
    }
    assert (hist + [x])[0] == (if |hist| == 0 then x else hist[0]);
    if n >= 2 && |hist| >= 1 {
      assert st'.rows[0] == st.rows[0];
    }
  }

  /** The wrap step at the last physical row keeps the invariant: the mirror
      half supplies the `N - 2` rows before the one written at `N - 1`. */
  lemma StoreInvWrap(st: Store, n: nat, sigCnt: nat, hist: seq<Row>, x: Row)
    requires StoreInv(st, n, sigCnt, hist) && |x| == sigCnt
    requires st.rend == 2 * n - 1
    ensures StoreInv(WriteRow(st, n, sigCnt, x), n, sigCnt, hist + [x])
  {
    var h, rend, rows := |hist|, st.rend, st.rows;
    var st' := WriteRow(st, n, sigCnt, x);
    var rows' := st'.rows;
    var hist' := hist + [x];
    assert st'.rend == n && rows'[n - 1] == x == hist'[h];
    forall j | 0 < j < n
      ensures rows'[j] == hist'[h + 1 - n + j]
    {
      if j < n - 1 {
        assert rows'[j] == rows[j] == rows[n + j];
        assert rows[n + j] == hist[h - rend + n + j];
      }
    }
    if n >= 2 && h >= 1 {
      assert rows'[0] == rows[0] == hist'[0];
    }
  }

  lemma StoreInvWriteRow(st: Store, n: nat, sigCnt: nat, hist: seq<Row>, x: Row)
    requires StoreInv(st, n, sigCnt, hist) && |x| == sigCnt
    ensures StoreInv(WriteRow(st, n, sigCnt, x), n, sigCnt, hist + [x])
  {
    if st.rend < 2 * n - 1 {
      StoreInvAdvance(st, n, sigCnt, hist, x);
    } else {
      StoreInvWrap(st, n, sigCnt, hist, x);
    }
  }

  /** The drain loop keeps the invariant for the extended history. */
  lemma {:induction false} StoreInvWriteAll(st: Store, n: nat, sigCnt: nat, hist: seq<Row>, q: seq<Row>)
    requires StoreInv(st, n, sigCnt, hist)
    requires forall k | 0 <= k < |q| :: |q[k]| == sigCnt
    ensures StoreInv(WriteAll(st, n, sigCnt, q), n, sigCnt, hist + q)
    decreases |q|
  {
    if q == [] {
      assert hist + q == hist;
    } else {
      StoreInvWriteRow(st, n, sigCnt, hist, q[0]);
      StoreInvWriteAll(WriteRow(st, n, sigCnt, q[0]), n, sigCnt, hist + [q[0]], q[1..]);
      assert hist + [q[0]] + q[1..] == hist + q;
    }
  }

  /** The invariant holds after any queue is pulled. */
  lemma InvPull(s: Buffer, hist: seq<Row>, q: seq<Row>)
    requires Inv(s, hist) && RowsFit(s, q)
    ensures Inv(Pull(s, q), hist + q)
  {
    StoreInvWriteAll(Store(s.rows, s.end), s.bufLen, s.sigCnt, hist, q);
  }

  /** A fresh buffer after the rows `hist` were pulled, in any grouping. */
  function Filled(n: nat, sigCnt: nat, hist: seq<Row>): (s: Buffer)
    requires n >= 1
    requires forall k | 0 <= k < |hist| :: |hist[k]| == sigCnt
    ensures Valid(s)
  {
    Pull(New(n, sigCnt), hist)
  }

  lemma InvFilled(n: nat, sigCnt: nat, hist: seq<Row>)
    requires n >= 1
    requires forall k | 0 <= k < |hist| :: |hist[k]| == sigCnt
    ensures Inv(Filled(n, sigCnt, hist), hist)
  {
    InvNew(n, sigCnt);
    InvPull(New(n, sigCnt), [], hist);
    assert [] + hist == hist;
  }

  /** Initial fill: after `M <= N` rows the window is those rows in order
      followed by `N - M` rows of the fill value. */
  lemma InitialFill(n: nat, sigCnt: nat, hist: seq<Row>)
    requires n >= 1 && |hist| <= n
    requires forall k | 0 <= k < |hist| :: |hist[k]| == sigCnt
    ensures Filled(n, sigCnt, hist).end == |hist|
    ensures Window(Filled(n, sigCnt, hist)) == hist + seq(n - |hist|, _ => Fill(sigCnt))
  {
    var s := Filled(n, sigCnt, hist);
    InvFilled(n, sigCnt, hist);
    var w := Window(s);
    var want := hist + seq(n - |hist|, _ => Fill(sigCnt));
    forall i | 0 <= i < n
      ensures w[i] == want[i]
    {
      if i < |hist| {
        assert w[i] == s.rows[i] == hist[i];
      } else {
        assert w[i] == s.rows[i] == Fill(sigCnt);
      }
    }
  }

  /** Once the cursor is past the middle, the window is exactly the last `N`
      rows pulled, in arrival order. */
  lemma WindowIsLastRows(n: nat, sigCnt: nat, hist: seq<Row>)
    requires n >= 1
    requires forall k | 0 <= k < |hist| :: |hist[k]| == sigCnt
    requires Filled(n, sigCnt, hist).end > n
    ensures |hist| >= n
    ensures Window(Filled(n, sigCnt, hist)) == hist[|hist| - n..]
  {
    var s := Filled(n, sigCnt, hist);
    InvFilled(n, sigCnt, hist);
    var w := Window(s);
    var h := |hist|;
    forall i | 0 <= i < n
      ensures w[i] == hist[h - n..][i]
    {
      if i == 0 {
        assert w[0] == s.rows[s.end - n];
      } else {
        assert w[i] == s.rows[s.end - n + i];
        assert s.rows[s.end - n + i] == hist[h - s.end + s.end - n + i];
      }
    }
  }

  /** The cursor after `h` rows pulled into a fresh buffer: `h` on the first
      pass, then it cycles through `N .. 2N - 1`, returning to `N` at every
      wrap. */
  lemma {:induction false} FilledEnd(n: nat, sigCnt: nat, hist: seq<Row>)
    requires n >= 1
    requires forall k | 0 <= k < |hist| :: |hist[k]| == sigCnt
    ensures Filled(n, sigCnt, hist).end == CursorAfter(n, |hist|)
    decreases |hist|
  {
    if hist == [] {
      assert WriteAll(Store(New(n, sigCnt).rows, 0), n, sigCnt, []) == Store(New(n, sigCnt).rows, 0);
    } else {
      var first, x := hist[..|hist| - 1], hist[|hist| - 1];
      assert hist == first + [x];
      FilledEnd(n, sigCnt, first);
      var s0 := Filled(n, sigCnt, first);
      PullAppend(New(n, sigCnt), first, [x]);
      PullSingle(s0, x);
      var e1 := WriteRow(Store(s0.rows, s0.end), n, sigCnt, x).rend;
      assert e1 == if s0.end < 2 * n - 1 then s0.end + 1 else n;
      CursorStep(n, |first|);
    }
  }

  /** The closed form of the cursor after `h` pulled rows. */
  function CursorAfter(n: nat, h: nat): nat
    requires n >= 1
  {
    if h < 2 * n then h else n + (h - 2 * n) % n
  }

  /** One more row advances the closed form as the write rule does. */
  lemma CursorStep(n: nat, h: nat)
    requires n >= 1
    ensures CursorAfter(n, h) <= 2 * n - 1
    ensures CursorAfter(n, h + 1)
         == if CursorAfter(n, h) < 2 * n - 1 then CursorAfter(n, h) + 1 else n
  {
    if h >= 2 * n {
      ModStep(h - 2 * n, n);
    }
  }

  lemma ModStep(a: nat, n: nat)
    requires n >= 1
    ensures (a + 1) % n == if a % n == n - 1 then 0 else a % n + 1
  {
    var q, r := a / n, a % n;
    assert a == q * n + r;
    if r == n - 1 {
      assert a + 1 == (q + 1) * n + 0;
      ModUnique(a + 1, q + 1, 0, n);
    } else {
      ModUnique(a + 1, q, r + 1, n);
    }
  }

  lemma ModUnique(x: nat, q: int, r: int, n: nat)
    requires n >= 1 && 0 <= r < n && x == q * n + r
    ensures x % n == r
  {
    var d := x / n - q;
    assert d * n == r - x % n;
  }

  /** The window's contiguity claim fails at every wrap: whenever the cursor
      comes back to `N` (`N >= 2`), the window starts at the never-refreshed
      row 0, which still holds the first row ever pulled, and only its other
      `N - 1` rows are the most recent ones. */
  lemma StaleRowAfterWrap(n: nat, sigCnt: nat, hist: seq<Row>)
    requires n >= 2 && |hist| >= 2 * n && (|hist| - 2 * n) % n == 0
    requires forall k | 0 <= k < |hist| :: |hist[k]| == sigCnt
    ensures Filled(n, sigCnt, hist).end == n
    ensures Window(Filled(n, sigCnt, hist))[0] == hist[0]
    ensures Window(Filled(n, sigCnt, hist))[1..] == hist[|hist| - n + 1..]
    ensures hist[0] != hist[|hist| - n] ==> Window(Filled(n, sigCnt, hist)) != hist[|hist| - n..]
  {
    FilledEnd(n, sigCnt, hist);
    var s := Filled(n, sigCnt, hist);
    InvFilled(n, sigCnt, hist);
    var w := Window(s);
    var h := |hist|;
    assert w[0] == s.rows[0] == hist[0];
    forall i | 0 <= i < n - 1
      ensures w[1..][i] == hist[h - n + 1..][i]
    {
      assert w[1..][i] == s.rows[i + 1];
    }
    if hist[0] != hist[h - n] {
      assert w[0] != hist[h - n..][0];
    }
  }

  /** A concrete instance: `N = 2`, one channel, rows 1..4 pulled into a fresh
      buffer give the window `[1], [4]` instead of `[3], [4]`. */
  lemma StaleRowExample()
    ensures Window(Filled(2, 1, [[1.0], [2.0], [3.0], [4.0]])) == [[1.0], [4.0]]
  {
    var hist: seq<Row> := [[1.0], [2.0], [3.0], [4.0]];
    StaleRowAfterWrap(2, 1, hist);
    var w := Window(Filled(2, 1, hist));
    assert w[1..] == [[4.0]];
    assert w == [w[0]] + w[1..];
  }

  /** The same at the second wrap: with `N = 2`, after any six one-channel
      rows the window is the first and the sixth, e.g. rows 1..6 give
      `[1], [6]`. */
  lemma StaleRowSecondWrap(hist: seq<Row>)
    requires |hist| == 6 && forall k | 0 <= k < 6 :: |hist[k]| == 1
    ensures Window(Filled(2, 1, hist)) == [hist[0], hist[5]]
  {
    StaleRowAfterWrap(2, 1, hist);
    var w := Window(Filled(2, 1, hist));
    assert w[1..] == hist[5..] == [hist[5]];
    assert w == [w[0]] + w[1..];
  }

  /* The evidently intended write rule mirrors from `rend == N` on, so that
     row 0 is refreshed as well; with it the window is always the last `N`
     rows once `N` rows were pulled. */

  /** `WriteRow` with the mirror condition `rend >= N`. */
  function WriteRowMirrored(st: Store, n: nat, sigCnt: nat, row: Row): (st': Store)
    requires StoreFits(st, n, sigCnt) && |row| == sigCnt
    ensures StoreFits(st', n, sigCnt)
    ensures st.rend < 2 * n - 1 ==> st'.rend == st.rend + 1 && st'.rows[st.rend] == row
    ensures st.rend < 2 * n - 1 && st.rend >= n ==> st'.rows[st.rend - n] == row
    ensures st.rend == 2 * n - 1 ==> st'.rend == n && st'.rows[n - 1] == row
    ensures forall j | 0 <= j < 2 * n ::
      (if st.rend < 2 * n - 1 then j != st.rend && (st.rend < n || j != st.rend - n) else j != n - 1)
      ==> st'.rows[j] == st.rows[j]
  {
    if st.rend < 2 * n - 1 then
      var written := st.rows[st.rend := row];
      var mirrored := if st.rend >= n then written[st.rend - n := row] else written;
      Store(mirrored, st.rend + 1)
    else
      Store(st.rows[n - 1 := row], n)
  }

  function WriteAllMirrored(st: Store, n: nat, sigCnt: nat, q: seq<Row>): (st': Store)
    requires StoreFits(st, n, sigCnt)
    requires forall k | 0 <= k < |q| :: |q[k]| == sigCnt
    ensures StoreFits(st', n, sigCnt)
    decreases |q|
  {
    if q == [] then st else WriteAllMirrored(WriteRowMirrored(st, n, sigCnt, q[0]), n, sigCnt, q[1..])
  }

  /** A fresh buffer after the rows `hist` were pulled with the corrected rule. */
  function FilledMirrored(n: nat, sigCnt: nat, hist: seq<Row>): (s: Buffer)
    requires n >= 1
    requires forall k | 0 <= k < |hist| :: |hist[k]| == sigCnt
    ensures Valid(s)
  {
    var st := WriteAllMirrored(Store(New(n, sigCnt).rows, 0), n, sigCnt, hist);
    Buffer(st.rows, n, sigCnt, Max(0, st.rend - n), st.rend)
  }

  /** Rows `max(0, e - N) .. e - 1` hold the most recent rows pulled. */
  ghost predicate RecentRows(rows: seq<Row>, e: nat, n: nat, hist: seq<Row>)
    requires |rows| == 2 * n && e < 2 * n && e <= |hist|
  {
    forall j | Max(0, e - n) <= j < e :: rows[j] == hist[|hist| - e + j]
  }

  /** Rows `k` and `k - N` agree for `N <= k < e`. */
  ghost predicate MirroredFrom(rows: seq<Row>, e: nat, n: nat)
    requires |rows| == 2 * n && e < 2 * n
  {
    forall k | n <= k < e :: rows[k - n] == rows[k]
  }

  ghost predicate MirroredInv(st: Store, n: nat, sigCnt: nat, hist: seq<Row>) {
    && StoreFits(st, n, sigCnt)
    && |hist| >= st.rend
    && (|hist| == st.rend || st.rend >= n)
    && RecentRows(st.rows, st.rend, n, hist)
    && MirroredFrom(st.rows, st.rend, n)
  }

  lemma MirroredInvAdvance(st: Store, n: nat, sigCnt: nat, hist: seq<Row>, x: Row)
    requires MirroredInv(st, n, sigCnt, hist) && |x| == sigCnt
    requires st.rend < 2 * n - 1
    ensures MirroredInv(WriteRowMirrored(st, n, sigCnt, x), n, sigCnt, hist + [x])
  {
    var h, e, rows := |hist|, st.rend, st.rows;
    var st' := WriteRowMirrored(st, n, sigCnt, x);
    var rows', e' := st'.rows, st'.rend;
    var hist' := hist + [x];
    forall j | Max(0, e' - n) <= j < e'
      ensures rows'[j] == hist'[h + 1 - e' + j]
    {
      if j < e {
        assert rows'[j] == rows[j] == hist[h - e + j];
      }
    }
    forall k | n <= k < e'
      ensures rows'[k - n] == rows'[k]
    {
      if k < e {
        assert rows'[k - n] == rows[k - n] == rows[k] == rows'[k];
      }
    }
  }

  lemma MirroredInvWrap(st: Store, n: nat, sigCnt: nat, hist: seq<Row>, x: Row)
    requires MirroredInv(st, n, sigCnt, hist) && |x| == sigCnt
    requires st.rend == 2 * n - 1
    ensures MirroredInv(WriteRowMirrored(st, n, sigCnt, x), n, sigCnt, hist + [x])
  {
    var h, e, rows := |hist|, st.rend, st.rows;
    var st' := WriteRowMirrored(st, n, sigCnt, x);
    var rows' := st'.rows;
    var hist' := hist + [x];
    forall j | 0 <= j < n
      ensures rows'[j] == hist'[h + 1 - n + j]
    {
      if j < n - 1 {
        assert rows'[j] == rows[j] == rows[n + j];
        assert rows[n + j] == hist[h - e + n + j];
      }
    }
  }

  lemma {:induction false} MirroredInvWriteAll(st: Store, n: nat, sigCnt: nat, hist: seq<Row>, q: seq<Row>)
    requires MirroredInv(st, n, sigCnt, hist)
    requires forall k | 0 <= k < |q| :: |q[k]| == sigCnt
    ensures MirroredInv(WriteAllMirrored(st, n, sigCnt, q), n, sigCnt, hist + q)
    decreases |q|
  {
    if q == [] {
      assert hist + q == hist;
    } else {
      if st.rend < 2 * n - 1 {
        MirroredInvAdvance(st, n, sigCnt, hist, q[0]);
      } else {
        MirroredInvWrap(st, n, sigCnt, hist, q[0]);
      }
      MirroredInvWriteAll(WriteRowMirrored(st, n, sigCnt, q[0]), n, sigCnt, hist + [q[0]], q[1..]);
      assert hist + [q[0]] + q[1..] == hist + q;
    }
  }

  lemma MirroredInvFilled(n: nat, sigCnt: nat, hist: seq<Row>)
    requires n >= 1
    requires forall k | 0 <= k < |hist| :: |hist[k]| == sigCnt
    ensures var s := FilledMirrored(n, sigCnt, hist);
      MirroredInv(Store(s.rows, s.end), n, sigCnt, hist)
  {
    var st0 := Store(New(n, sigCnt).rows, 0);
    assert MirroredInv(st0, n, sigCnt, []);
    MirroredInvWriteAll(st0, n, sigCnt, [], hist);
    assert [] + hist == hist;
  }

  /** With the corrected rule the contiguity claim holds: once `N` rows were
      pulled the window is exactly the last `N` of them, wrap or no wrap. */
  lemma MirroredWindowIsLastRows(n: nat, sigCnt: nat, hist: seq<Row>)
    requires n >= 1 && |hist| >= n
    requires forall k | 0 <= k < |hist| :: |hist[k]| == sigCnt
    ensures Window(FilledMirrored(n, sigCnt, hist)) == hist[|hist| - n..]
  {
    var s := FilledMirrored(n, sigCnt, hist);
    MirroredInvFilled(n, sigCnt, hist);
    var h := |hist|;
    assert s.end >= n;
    var w := Window(s);
    forall i | 0 <= i < n
      ensures w[i] == hist[h - n..][i]
    {
      assert w[i] == s.rows[s.end - n + i];
    }
  }

  /** The corrected rule on the four-row instance above gives `[3], [4]`. */
  lemma MirroredExample()
    ensures Window(FilledMirrored(2, 1, [[1.0], [2.0], [3.0], [4.0]])) == [[3.0], [4.0]]
  {
    var hist: seq<Row> := [[1.0], [2.0], [3.0], [4.0]];
    MirroredWindowIsLastRows(2, 1, hist);
    assert hist[2..] == [[3.0], [4.0]];
  }
}

=== FILE: signal_renderer.dfy ===
/** The plot widget's state that is not drawing: which channels are shown,
    kept as a sorted list of channel indices, and the vertical magnification. */
module SignalRenderer {
  import Lists

  /** The order the selection is kept in. */
  function Less(a: int, b: int): bool {
    a < b
  }

  lemma LessIsStrictWeakOrder()
    ensures Lists.StrictWeakOrder(Less)
  {
  }

  datatype Renderer = Renderer(selected: seq<int>, multiplier: real)

  /** The constructor: all fourteen channels shown, unit magnification. */
  function NewRenderer(): (r: Renderer)
    ensures |r.selected| == 14
    ensures forall c :: c in r.selected <==> 0 <= c < 14
    ensures Lists.StrictlySortedBy(Less, r.selected)
    ensures r.multiplier == 1.0
  {
    var all := seq(14, i => i);
    forall c | 0 <= c < 14 ensures c in all {
      assert all[c] == c;
    }
    Renderer(all, 1.0)
  }

  /** `select_channels`: the given list replaces the selection as is. */
  function SelectChannels(r: Renderer, which: seq<int>): (r': Renderer)
    ensures r'.selected == which && r'.multiplier == r.multiplier
  {
    r.(selected := which)
  }

  /** The selection after `toggle_channel(ndx)`: a shown channel is removed
      (its first occurrence), a hidden one is inserted by binary search. */
  function Toggle(selected: seq<int>, ndx: int): (r: seq<int>)
    ensures ndx in selected ==> multiset(r) == multiset(selected) - multiset{ndx}
    ensures ndx !in selected ==> multiset(r) == multiset(selected) + multiset{ndx}
  {
    if ndx in selected then
      Lists.RemoveFirstContents(selected, ndx);
      Lists.RemoveFirst(selected, ndx)
    else Lists.Insort(selected, ndx, Less)
  }

  function ToggleChannel(r: Renderer, ndx: int): (r': Renderer)
    ensures r'.selected == Toggle(r.selected, ndx) && r'.multiplier == r.multiplier
  {
    r.(selected := Toggle(r.selected, ndx))
  }

  /** Inserting keeps every element and adds `ndx`. */
  lemma InsertMembership(selected: seq<int>, ndx: int)
    requires ndx !in selected
    ensures forall c :: c in Toggle(selected, ndx) <==> c in selected || c == ndx
  {
    var r := Toggle(selected, ndx);
    forall c ensures c in r <==> c in selected || c == ndx {
      assert c in r <==> multiset(r)[c] > 0;
      assert c in selected <==> multiset(selected)[c] > 0;
    }
  }

  /** No channel is listed twice. */
  predicate Distinct(selected: seq<int>) {
    forall i, j | 0 <= i < j < |selected| :: selected[i] != selected[j]
  }

  /** Removing from a list without repeats drops `ndx` altogether. */
  lemma RemoveMembership(selected: seq<int>, ndx: int)
    requires Distinct(selected) && ndx in selected
    ensures ndx !in Toggle(selected, ndx)
    ensures forall c | c != ndx :: c in Toggle(selected, ndx) <==> c in selected
  {
    var i := Lists.IndexOf(selected, ndx);
    Lists.RemoveFirstSplits(selected, ndx);
    Lists.RemoveFirstContents(selected, ndx);
    var r := Toggle(selected, ndx);
    forall k | 0 <= k < |r| ensures r[k] != ndx {
      if k < i {
        assert r[k] == selected[k];
      } else {
        assert r[k] == selected[k + 1];
      }
    }
  }

  /** On a selection without repeats, sorted or not, a toggle flips the
      membership of `ndx` and of nothing else. */
  lemma ToggleFlipsMembership(selected: seq<int>, ndx: int)
    requires Distinct(selected)
    ensures ndx in Toggle(selected, ndx) <==> ndx !in selected
    ensures forall c | c != ndx :: c in Toggle(selected, ndx) <==> c in selected
  {
    if ndx in selected {
      RemoveMembership(selected, ndx);
    } else {
      InsertMembership(selected, ndx);
    }
  }

  /** A sorted selection stays sorted, and a strictly sorted one stays strictly sorted. */
  lemma ToggleKeepsSorted(selected: seq<int>, ndx: int)
    requires Lists.SortedBy(Less, selected)
    ensures Lists.SortedBy(Less, Toggle(selected, ndx))
    ensures Lists.StrictlySortedBy(Less, selected) ==> Lists.StrictlySortedBy(Less, Toggle(selected, ndx))
  {
    LessIsStrictWeakOrder();
    if ndx in selected {
      Lists.RemoveFirstSorted(Less, selected, ndx);
    } else {
      Lists.InsortSorted(selected, ndx, Less);
      var r := Toggle(selected, ndx);
      if Lists.StrictlySortedBy(Less, selected) {
        forall i, j | 0 <= i < j < |r| ensures Less(r[i], r[j]) {
          assert !Less(r[j], r[i]);
          if r[i] == r[j] {
            ToggleDistinctAfterInsert(selected, ndx, i, j);
          }
        }
      }
    }
  }

  lemma ToggleDistinctAfterInsert(selected: seq<int>, ndx: int, i: nat, j: nat)
    requires Lists.StrictlySortedBy(Less, selected) && ndx !in selected
    requires i < j < |Toggle(selected, ndx)|
    ensures Toggle(selected, ndx)[i] != Toggle(selected, ndx)[j]
  {
    var p := Lists.BisectRight(selected, ndx, Less, 0, |selected|);
    InsertedAt(selected, ndx, i);
    InsertedAt(selected, ndx, j);
    if i != p && j != p {
      var a := if i < p then i else i - 1;
      var b := if j < p then j else j - 1;
      assert a < b && Less(selected[a], selected[b]);
    }
  }

  /** Element `k` of the list after inserting `ndx` at the binary-search point. */
  lemma InsertedAt(selected: seq<int>, ndx: int, k: nat)
    requires ndx !in selected && k <= |selected|
    ensures var p := Lists.BisectRight(selected, ndx, Less, 0, |selected|);
      Toggle(selected, ndx)[k] == if k < p then selected[k] else if k == p then ndx else selected[k - 1]
  {
    var r := Toggle(selected, ndx);
    var p := Lists.BisectRight(selected, ndx, Less, 0, |selected|);
    if k < p {
      assert r[k] == r[..p][k];
    } else if k > p {
      assert r[k] == r[p + 1..][k - p - 1];
    }
  }

  /** On a strictly sorted selection, toggling the same channel twice
      restores it. */
  lemma ToggleTwice(selected: seq<int>, ndx: int)
    requires Lists.StrictlySortedBy(Less, selected)
    ensures Toggle(Toggle(selected, ndx), ndx) == selected
  {
    LessIsStrictWeakOrder();
    if ndx in selected {
      var i := Lists.IndexOf(selected, ndx);
      Lists.RemoveFirstSplits(selected, ndx);
      ToggleFlipsMembership(selected, ndx);
      Lists.InsortUndoesRemoveAt(selected, i, Less);
    } else {
      Lists.RemoveFirstUndoesInsort(selected, ndx, Less);
    }
  }

  /** `update_magnification`: add to the multiplier, never going below 0.4. */
  function UpdateMagnification(r: Renderer, update: real): (r': Renderer)
    ensures r'.multiplier >= 0.4
    ensures r.multiplier + update >= 0.4 ==> r'.multiplier == r.multiplier + update
    ensures r.multiplier + update < 0.4 ==> r'.multiplier == 0.4
    ensures r'.selected == r.selected
  {
    var m := r.multiplier + update;
    r.(multiplier := if m > 0.4 then m else 0.4)
  }
}

=== FILE: signal_writer.dfy ===
/** The CSV sink: one line per packet holding the counter, the two gyro
    bytes, the fourteen channel levels and the contact-quality value (or the
    sentinel `-1` outside the contact-quality packets), written through an
    optional open file. */
module SignalWriter {
  import opened Wrappers
  import opened DataPacket

  /** One CSV field as `str` renders it: an `int`, an integral `float`
      (channel levels and contact quality are floats in the packet), or `None`. */
  datatype Field = IntField(i: int) | FloatField(n: nat) | NoneField

  /** `write_packet`'s record: counter, gyro X, gyro Y, the channels in
      canonical order, then the contact-quality value while the counter is
      below 14 and `-1` from then on. */
  function Record(p: Packet): (r: seq<Field>)
    ensures |r| == 4 + |p.eeg|
    ensures r[0] == IntField(p.counter) && r[1] == IntField(p.gyroX) && r[2] == IntField(p.gyroY)
    ensures forall i | 0 <= i < |p.eeg| :: r[3 + i] == FloatField(p.eeg[i])
    ensures r[|r| - 1] == IntField(-1) <==> p.counter >= 14
    ensures p.counter < 14 ==> r[|r| - 1] == (if p.cq.Some? then FloatField(p.cq.value.val) else NoneField)
  {
    var channels := seq(|p.eeg|, i requires 0 <= i < |p.eeg| => FloatField(p.eeg[i]));
    var last := if p.counter >= 14 then IntField(-1)
      else if p.cq.Some? then FloatField(p.cq.value.val)
      else NoneField;
    [IntField(p.counter), IntField(p.gyroX), IntField(p.gyroY)] + channels + [last]
  }

  /** A decoded packet always yields eighteen fields, never a `None`: the
      packet carries a contact-quality sample exactly when the counter is
      below 14. */
  lemma DecodedRecord(frame: Frame)
    ensures var p := Decode(frame);
      var r := Record(p);
      && |r| == 18
      && NoneField !in r
      && (r[17] == IntField(-1) <==> frame[0] >= 14)
      && (frame[0] < 14 ==> r[17] == FloatField(Level(frame, CqTable())))
  {
    var p := Decode(frame);
    var r := Record(p);
    forall i | 0 <= i < 18 ensures r[i] != NoneField {
      if 3 <= i < 17 {
        assert r[3 + (i - 3)] == FloatField(p.eeg[i - 3]);
      }
    }
  }

  predicate IsDigit(c: char) {
    '0' <= c <= '9'
  }

  predicate AllDigits(s: string) {
    forall i | 0 <= i < |s| :: IsDigit(s[i])
  }

  function DigitChar(d: nat): (c: char)
    requires d < 10
    ensures IsDigit(c)
  {
    ('0' as int + d) as char
  }

  /** Decimal digits of `n`, most significant first, as `str` prints them. */
  function NatToString(n: nat): (s: string)
    ensures |s| >= 1 && AllDigits(s)
  {
    if n < 10 then [DigitChar(n)] else NatToString(n / 10) + [DigitChar(n % 10)]
  }

  function IntToString(i: int): string {
    if i < 0 then "-" + NatToString(-i) else NatToString(i)
  }

  /** `str` of a field; an integral float prints with a `.0` suffix. */
  function Render(f: Field): string {
    match f
    case IntField(i) => IntToString(i)
    case FloatField(n) => NatToString(n) + ".0"
    case NoneField => "None"
  }

  /** The value of a string of decimal digits. */
  function ParseDigits(s: string): nat
    requires AllDigits(s)
  {
    if s == [] then 0 else ParseDigits(s[..|s| - 1]) * 10 + (s[|s| - 1] as int - '0' as int)
  }

  lemma {:induction false} ParseNatToString(n: nat)
    ensures ParseDigits(NatToString(n)) == n
  {
    if n >= 10 {
      var s := NatToString(n);
      ParseNatToString(n / 10);
      assert s[..|s| - 1] == NatToString(n / 10);
    }
  }

  /** Reads back a rendered field. */
  function ParseField(s: string): Option<Field> {
    if s == "None" then Some(NoneField)
    else if |s| >= 3 && s[|s| - 2] == '.' && s[|s| - 1] == '0' && AllDigits(s[..|s| - 2]) then
      Some(FloatField(ParseDigits(s[..|s| - 2])))
    else if |s| >= 2 && s[0] == '-' && AllDigits(s[1..]) then Some(IntField(-(ParseDigits(s[1..]) as int)))
    else if |s| >= 1 && AllDigits(s) then Some(IntField(ParseDigits(s)))
    else None
  }

  /** Every field reads back as itself. */
  lemma ParseRender(f: Field)
    ensures ParseField(Render(f)) == Some(f)
  {
    match f
    case IntField(i) =>
      if i < 0 {
        ParseNegative(-i);
      } else {
        ParseNonNegative(i);
      }
    case FloatField(n) =>
      ParseFloat(n);
    case NoneField =>
  }

  lemma ParseNegative(n: nat)
    requires n > 0
    ensures ParseField("-" + NatToString(n)) == Some(IntField(-(n as int)))
  {
    var s := "-" + NatToString(n);
    ParseNatToString(n);
    assert s[1..] == NatToString(n);
    assert s[0] == '-' && !IsDigit(s[0]);
    assert s != "None";
  }

  lemma ParseNonNegative(n: nat)
    ensures ParseField(NatToString(n)) == Some(IntField(n))
  {
    var s := NatToString(n);
    ParseNatToString(n);
    assert !IsDigit('N') && IsDigit(s[0]);
    assert s != "None";
    assert !(|s| >= 2 && s[0] == '-');
  }

  lemma ParseFloat(n: nat)
    ensures ParseField(NatToString(n) + ".0") == Some(FloatField(n))
  {
    var s := NatToString(n) + ".0";
    ParseNatToString(n);
    assert s[..|s| - 2] == NatToString(n);
    assert !IsDigit('N') && IsDigit(s[0]);
    assert s != "None";
  }

  /** The characters `str` prints for a field: digits, the sign, the decimal
      point and the letters of `None`. */
  predicate FieldChar(c: char) {
    IsDigit(c) || c == '-' || c == '.' || c == 'N' || c == 'o' || c == 'n' || c == 'e'
  }

  lemma RenderChars(f: Field)
    ensures forall k | 0 <= k < |Render(f)| :: FieldChar(Render(f)[k])
  {
    var s := Render(f);
    match f
    case IntField(i) =>
      if i < 0 {
        assert forall k | 1 <= k < |s| :: IsDigit(s[k]) by {
          assert s[1..] == NatToString(-i);
          forall k | 1 <= k < |s| ensures IsDigit(s[k]) {
            assert s[k] == s[1..][k - 1];
          }
        }
      }
    case FloatField(n) =>
      var d := NatToString(n);
      assert forall k | 0 <= k < |d| :: s[k] == d[k];
    case NoneField =>
  }

  /** A rendered field holds neither a comma nor a newline, so the
      separator is unambiguous and every record stays on one line. */
  lemma RenderHasNoComma(f: Field)
    ensures ',' !in Render(f) && '\n' !in Render(f)
  {
    RenderChars(f);
  }

  /** `string.join(xs, ', ')`. */
  function Join(xs: seq<string>): string {
    if xs == [] then ""
    else if |xs| == 1 then xs[0]
    else xs[0] + ", " + Join(xs[1..])
  }

  /** `str.split(', ')`: cuts at every leftmost non-overlapping separator. */
  function Split(s: string): (r: seq<string>)
    ensures |r| >= 1
  {
    if s == [] then [""]
    else if |s| >= 2 && s[0] == ',' && s[1] == ' ' then [""] + Split(s[2..])
    else
      var rest := Split(s[1..]);
      [[s[0]] + rest[0]] + rest[1..]
  }

  lemma {:induction false} SplitPrefix(x: string, t: string)
    requires ',' !in x
    ensures Split(x + t) == [x + Split(t)[0]] + Split(t)[1..]
    decreases |x|
  {
    if x != [] {
      SplitPrefix(x[1..], t);
      assert (x + t)[1..] == x[1..] + t;
      assert [x[0]] + (x[1..] + Split(t)[0]) == x + Split(t)[0];
    } else {
      var r := Split(t);
      assert x + t == t;
      assert r == [r[0]] + r[1..];
      assert x + r[0] == r[0];
    }
  }

  /** Splitting a join of comma-free fields gives the fields back. */
  lemma {:induction false} SplitJoin(xs: seq<string>)
    requires |xs| >= 1
    requires forall i | 0 <= i < |xs| :: ',' !in xs[i]
    ensures Split(Join(xs)) == xs
    decreases |xs|
  {
    if |xs| == 1 {
      SplitPrefix(xs[0], "");
      assert xs[0] + "" == xs[0];
    } else {
      var rest := ", " + Join(xs[1..]);
      assert Join(xs) == xs[0] + rest;
      SplitJoin(xs[1..]);
      SplitPrefix(xs[0], rest);
      assert rest[0] == ',' && rest[1] == ' ';
      assert rest[2..] == Join(xs[1..]);
      assert Split(rest) == [""] + xs[1..];
      assert xs[0] + "" == xs[0];
      assert [xs[0]] + xs[1..] == xs;
    }
  }

  function Renders(r: seq<Field>): (ss: seq<string>)
    ensures |ss| == |r|
    ensures forall i | 0 <= i < |r| :: ss[i] == Render(r[i])
  {
    seq(|r|, i requires 0 <= i < |r| => Render(r[i]))
  }

  /** One CSV line: the rendered fields joined by `", "`, then a newline. A
      record is exactly one line of the file: the only newline ends it. */
  function Line(r: seq<Field>): (line: string)
    ensures |line| >= 1 && line[|line| - 1] == '\n'
    ensures '\n' !in line[..|line| - 1]
  {
    RendersHaveNoNewline(r);
    JoinHasNoNewline(Renders(r));
    var line := Join(Renders(r)) + "\n";
    assert line[..|line| - 1] == Join(Renders(r));
    line
  }

  lemma RendersHaveNoNewline(r: seq<Field>)
    ensures forall i | 0 <= i < |r| :: '\n' !in Renders(r)[i]
  {
    forall i | 0 <= i < |r| ensures '\n' !in Renders(r)[i] {
      RenderHasNoComma(r[i]);
    }
  }

  /** Joining newline-free strings with `", "` adds no newline. */
  lemma {:induction false} JoinHasNoNewline(xs: seq<string>)
    requires forall i | 0 <= i < |xs| :: '\n' !in xs[i]
    ensures '\n' !in Join(xs)
    decreases |xs|
  {
    if |xs| >= 2 {
      JoinHasNoNewline(xs[1..]);
      assert Join(xs) == xs[0] + ", " + Join(xs[1..]);
    }
  }

  function ParseAll(ss: seq<string>): (r: Option<seq<Field>>)
    ensures r.Some? ==> |r.value| == |ss|
  {
    if ss == [] then Some([])
    else
      var f :- ParseField(ss[0]);
      var rest :- ParseAll(ss[1..]);
      Some([f] + rest)
  }

  /** Reads back one line of the file. */
  function ParseLine(line: string): Option<seq<Field>> {
    if line == [] || line[|line| - 1] != '\n' then None
    else ParseAll(Split(line[..|line| - 1]))
  }

  lemma {:induction false} ParseAllRenders(r: seq<Field>)
    ensures ParseAll(Renders(r)) == Some(r)
    decreases |r|
  {
    if r != [] {
      ParseRender(r[0]);
      ParseAllRenders(r[1..]);
      assert Renders(r)[1..] == Renders(r[1..]);
      assert [r[0]] + r[1..] == r;
    }
  }

  /** A written line reads back as the record it came from. */
  lemma LineRoundTrip(r: seq<Field>)
    requires |r| >= 1
    ensures ParseLine(Line(r)) == Some(r)
  {
    var ss := Renders(r);
    forall i | 0 <= i < |ss| ensures ',' !in ss[i] {
      RenderHasNoComma(r[i]);
    }
    SplitJoin(ss);
    var line := Line(r);
    assert line[..|line| - 1] == Join(ss);
    ParseAllRenders(r);
  }

  /** `SignalWriter`: the name last given to `open` and the text written
      through the open file, if any. */
  datatype Writer = Writer(fname: Option<string>, file: Option<string>)

  function NewWriter(): (w: Writer)
    ensures !Ready(w)
  {
    Writer(None, None)
  }

  /** `ready`. */
  predicate Ready(w: Writer) {
    w.file.Some?
  }

  /** `ready()` tracks the handle through the writer's life: false at first,
      true after a successful `open` (and kept by a failed one), false after
      `close`, and unchanged by writing. */
  lemma ReadyTracksHandle(w: Writer, fname: string, canOpen: bool, p: Packet)
    ensures !Ready(NewWriter())
    ensures Ready(Open(w, fname, canOpen)) <==> canOpen || Ready(w)
    ensures Close(w).Success? ==> !Ready(Close(w).value)
    ensures Ready(w) ==> WritePacket(w, p).Success? && Ready(WritePacket(w, p).value)
  {
  }

  /** `open(fname)`, given whether the file system lets the file be created:
      success starts an empty file; failure is reported and keeps the old
      handle. */
  function Open(w: Writer, fname: string, canOpen: bool): (w': Writer)
    ensures w'.fname == Some(fname)
    ensures canOpen ==> w'.file == Some("")
    ensures !canOpen ==> w'.file == w.file
  {
    if canOpen then Writer(Some(fname), Some("")) else w.(fname := Some(fname))
  }

  /** `close`: drops the handle; without one it raises `AttributeError`. */
  function Close(w: Writer): (r: Result<Writer>)
    ensures r.Failure? <==> !Ready(w)
    ensures r.Failure? ==> r.error == AttributeError
    ensures r.Success? ==> !Ready(r.value) && r.value.fname == w.fname
  {
    if w.file.None? then Failure(AttributeError) else Success(w.(file := None))
  }

  /** `write_packet`: appends the packet's line; without a file it raises
      `AttributeError`. */
  function WritePacket(w: Writer, p: Packet): (r: Result<Writer>)
    ensures r.Failure? <==> !Ready(w)
    ensures r.Failure? ==> r.error == AttributeError
    ensures r.Success? ==> r.value.file == Some(w.file.value + Line(Record(p)))
    ensures r.Success? ==> r.value.fname == w.fname
  {
    if w.file.None? then Failure(AttributeError)
    else Success(w.(file := Some(w.file.value + Line(Record(p)))))
  }

  function WriteAll(w: Writer, ps: seq<Packet>): Result<Writer>
    decreases |ps|
  {
    if ps == [] then Success(w)
    else
      var w1 :- WritePacket(w, ps[0]);
      WriteAll(w1, ps[1..])
  }

  /** The lines of a run of packets, one after the other. */
  function Lines(ps: seq<Packet>): string
    decreases |ps|
  {
    if ps == [] then "" else Line(Record(ps[0])) + Lines(ps[1..])
  }

  /** A file opened for a recording holds exactly the lines of the packets
      written to it, in order. */
  lemma {:induction false} RecordingContents(w: Writer, ps: seq<Packet>)
    requires Ready(w)
    ensures WriteAll(w, ps).Success?
    ensures WriteAll(w, ps).value.file == Some(w.file.value + Lines(ps))
    decreases |ps|
  {
    if ps == [] {
      assert w.file.value + Lines(ps) == w.file.value;
    } else {
      var line := Line(Record(ps[0]));
      var w1 := Writer(w.fname, Some(w.file.value + line));
      assert WritePacket(w, ps[0]) == Success(w1);
      assert WriteAll(w, ps) == WriteAll(w1, ps[1..]);
      RecordingContents(w1, ps[1..]);
      assert Lines(ps) == line + Lines(ps[1..]);
      assert (w.file.value + line) + Lines(ps[1..]) == w.file.value + (line + Lines(ps[1..]));
    }
  }

  /** Opening, writing and reading one line back gives the packet's record. */
  lemma RecordedLineReadsBack(fname: string, p: Packet)
    ensures var w := WritePacket(Open(NewWriter(), fname, true), p);
      && w.Success?
      && w.value.file == Some(Line(Record(p)))
      && ParseLine(w.value.file.value) == Some(Record(p))
  {
    LineRoundTrip(Record(p));
    assert "" + Line(Record(p)) == Line(Record(p));
  }
}

=== FILE: wave_rider.dfy ===
/** The application's per-frame rules that are not drawing: the square
    cursor steered by the gyro, and the counter that refreshes the
    packet-rate label on every twelfth frame. */
module WaveRider {
  import opened Wrappers
  import opened DataPacket

  /** The gyro reading at rest; readings within one of it do not move the cursor. */
  const GyroRest := 105
  /** Pixels per gyro unit. */
  const Gain := 4
  const MinX := 20
  const MaxX := 800
  const MinY := 20
  const MaxY := 600

  /** `max(lo, min(hi, v))`. */
  function Clamp(v: int, lo: int, hi: int): (r: int)
    requires lo <= hi
    ensures lo <= r <= hi
    ensures lo <= v <= hi ==> r == v
    ensures v < lo ==> r == lo
    ensures v > hi ==> r == hi
  {
    var m := if hi < v then hi else v;
    if lo > m then lo else m
  }

  function Abs(v: int): nat {
    if v < 0 then -v else v
  }

  /** Horizontal step: turning the head moves the cursor against the X gyro. */
  function StepX(x: int, gx: int): (x': int)
    ensures Abs(gx - GyroRest) <= 1 ==> x' == x
    ensures Abs(gx - GyroRest) > 1 ==> x' == Clamp(x + (GyroRest - gx) * Gain, MinX, MaxX)
  {
    if Abs(gx - GyroRest) > 1 then Clamp(x + (GyroRest - gx) * Gain, MinX, MaxX) else x
  }

  /** Vertical step: the cursor follows the Y gyro. */
  function StepY(y: int, gy: int): (y': int)
    ensures Abs(gy - GyroRest) <= 1 ==> y' == y
    ensures Abs(gy - GyroRest) > 1 ==> y' == Clamp(y + (gy - GyroRest) * Gain, MinY, MaxY)
  {
    if Abs(gy - GyroRest) > 1 then Clamp(y + (gy - GyroRest) * Gain, MinY, MaxY) else y
  }

  /** Inside the box the steps move in the direction of the reading and
      never overshoot it by more than the reading asks. */
  lemma StepDirections(x: int, y: int, gx: int, gy: int)
    requires MinX <= x <= MaxX && MinY <= y <= MaxY
    ensures gx < GyroRest - 1 ==> x <= StepX(x, gx) <= x + (GyroRest - gx) * Gain
    ensures gx > GyroRest + 1 ==> x + (GyroRest - gx) * Gain <= StepX(x, gx) <= x
    ensures gy > GyroRest + 1 ==> y <= StepY(y, gy) <= y + (gy - GyroRest) * Gain
    ensures gy < GyroRest - 1 ==> y + (gy - GyroRest) * Gain <= StepY(y, gy) <= y
  {
  }

  /** Whether the cursor is drawn, and its centre `sq_pos`. */
  datatype Cursor = Cursor(render: bool, x: int, y: int)

  /** The cursor as the window starts: hidden, at the centre (400, 300). */
  const InitialCursor := Cursor(false, 400, 300)

  predicate InBox(c: Cursor) {
    MinX <= c.x <= MaxX && MinY <= c.y <= MaxY
  }

  /** The cursor part of `begin_frame`: moves only while drawn and with both
      gyro readings known. */
  function BeginFrameCursor(c: Cursor, gx: Option<byte>, gy: Option<byte>): (c': Cursor)
    ensures c'.render == c.render
    ensures !(c.render && gx.Some? && gy.Some?) ==> c' == c
    ensures c.render && gx.Some? && gy.Some? ==>
      c'.x == StepX(c.x, gx.value) && c'.y == StepY(c.y, gy.value)
  {
    if c.render && gx.Some? && gy.Some? then
      c.(x := StepX(c.x, gx.value), y := StepY(c.y, gy.value))
    else c
  }

  /** `toggle_cursor_rendering`: showing the cursor recentres it, hiding it
      keeps the position. */
  function ToggleCursorRendering(c: Cursor): (c': Cursor)
    ensures c'.render == !c.render
    ensures !c.render ==> c'.x == 400 && c'.y == 300
    ensures c.render ==> c'.x == c.x && c'.y == c.y
  {
    if !c.render then Cursor(true, 400, 300) else c.(render := false)
  }

  /** What happens to the cursor between two draws. */
  datatype CursorEvent = ToggleKey | Frame(gx: Option<byte>, gy: Option<byte>)

  function Apply(c: Cursor, e: CursorEvent): Cursor {
    match e
    case ToggleKey => ToggleCursorRendering(c)
    case Frame(gx, gy) => BeginFrameCursor(c, gx, gy)
  }

  function Run(c: Cursor, es: seq<CursorEvent>): Cursor
    decreases |es|
  {
    if es == [] then c else Run(Apply(c, es[0]), es[1..])
  }

  /** Every event keeps a cursor inside the box inside it. */
  lemma ApplyKeepsInBox(c: Cursor, e: CursorEvent)
    requires InBox(c)
    ensures InBox(Apply(c, e))
  {
  }

  /** From the start, whatever the gyro does, the cursor never leaves
      [20, 800] x [20, 600]. */
  lemma {:induction false} CursorStaysInBox(c: Cursor, es: seq<CursorEvent>)
    requires InBox(c)
    ensures InBox(Run(c, es))
    decreases |es|
  {
    if es != [] {
      ApplyKeepsInBox(c, es[0]);
      CursorStaysInBox(Apply(c, es[0]), es[1..]);
    }
  }

  lemma InitialCursorStaysInBox(es: seq<CursorEvent>)
    ensures InBox(Run(InitialCursor, es))
  {
    CursorStaysInBox(InitialCursor, es);
  }

  /** Frames after which the packet-rate label is refreshed. */
  const RefreshPeriod := 12

  /** `update_packet_speed_label`'s counter: past 10 the label is refreshed
      and the counter restarts, otherwise it counts up. */
  function Tick(counter: nat): (r: (nat, bool))
    ensures counter > 10 ==> r == (0, true)
    ensures counter <= 10 ==> r == (counter + 1, false)
  {
    if counter > 10 then (0, true) else (counter + 1, false)
  }

  /** The counter and the number of refreshes after `k` frames. */
  function Ticks(counter: nat, k: nat): (r: (nat, nat))
    decreases k
  {
    if k == 0 then (counter, 0)
    else
      var step := Tick(counter);
      var rest := Ticks(step.0, k - 1);
      (rest.0, rest.1 + (if step.1 then 1 else 0))
  }

  /** Ticking from any counter in range adds the ticks modulo the period. */
  lemma {:induction false} TicksFrom(counter: nat, k: nat)
    requires counter < RefreshPeriod
    ensures Ticks(counter, k).0 == (counter + k) % RefreshPeriod
    ensures Ticks(counter, k).1 == (counter + k) / RefreshPeriod
    decreases k
  {
    if k > 0 {
      var step := Tick(counter);
      TicksFrom(step.0, k - 1);
      if counter == 11 {
        assert (counter + k) % RefreshPeriod == (k - 1) % RefreshPeriod;
        assert (counter + k) / RefreshPeriod == (k - 1) / RefreshPeriod + 1;
      }
    }
  }

  /** From the window's initial 0 the counter stays in 0..11 and the label
      is refreshed on every twelfth frame. */
  lemma ThrottleFromStart(k: nat)
    ensures Ticks(0, k).0 == k % RefreshPeriod && Ticks(0, k).0 <= 11
    ensures Ticks(0, k).1 == k / RefreshPeriod
  {
    TicksFrom(0, k);
  }
}

=== FILE: wrappers.dfy ===
/** How the model writes Python's `None` and raised exceptions: an absent
    value is `Option.None`, and a call that raises returns `Result.Failure`
    with the exception's kind. Both types support `:-`, so a raised
    exception propagates through the caller as it does in the interpreter. */
module Wrappers {

  datatype Option<+T> = None | Some(value: T) {

    predicate IsFailure() {
      None?
    }

    function PropagateFailure<U>(): Option<U>
      requires None?
    {
      None
    }

    function Extract(): T
      requires Some?
    {
      value
    }
  }

  /** The Python exceptions the modelled code can raise on its own. */
  datatype Error =
    | IndexError     // a sequence index past the end
    | KeyError       // a dictionary lookup of an absent key
    | ValueError     // `list.remove` of an absent element
    | AttributeError // a method called on `None`

  datatype Result<+R> = Success(value: R) | Failure(error: Error) {

    predicate IsFailure() {
      Failure?
    }

    function PropagateFailure<U>(): Result<U>
      requires Failure?
    {
      Failure(this.error)
    }

    function Extract(): R
      requires Success?
    {
      value
    }
  }
}
